=== FILE: README.md ===
# Unit plan reviewer: classifier, regions, annotations and metrics in Dafny

This project models the deterministic core of a tool that reviews
architectural unit plans for accessibility. A PDF page's text is classified
into drawing tags. Regions around anchor phrases are cut out for review. The
reviewer's annotations are applied to the resulting review. Quality metrics,
warnings and suggestions are derived from it. Every operation is a pure
function over immutable datatypes, with its properties proved; where the
source's in-place updates could be observed through shared objects,
"## Left out" says so.

Modules, one file each:

- `Text` (`text.dfy`): the Python string built-ins the core relies on:
  - `upper` (ASCII letters), `strip` and `isspace` (Python's whitespace
    code points);
  - `splitlines` (Python's line-break code points);
  - substring search;
  - `str(n)`.
- `Schemas` (`schemas.dfy`): rulesets, the High/Medium/Low scale, `Issue`,
  `PageReview` and `ReviewResult`. The issue fields `issue_id`,
  `measurement` and `reviewer_note` are read by the annotation and metrics
  code but missing from the `Issue` class in src/schemas.py (lines 6-12).
  Here they are strings, with
  `""` standing for an absent value.
- `PageClassifier` (`page_classifier.dfy`):
  - keyword scoring and the "Door Schedule" table bonus;
  - confidence tiers;
  - the "keep tags scoring 3 or more, else the first best tag" rule;
  - the stable descending sort.
- `RegionExtractor` (`region_extractor.dfy`):
  - anchor search over text blocks;
  - padded crop rectangles, clamped to the page;
  - the whole-page fallback;
  - scaling to pixels with truncation and clamping.
- `Annotations` (`annotations.dfy`): positional issue ids, dismissals,
  severity overrides and notes.
- `QualityAnalysis` (`quality_analysis.dfy`): counts, guarded ratios, and
  the warnings and suggestions, as enumerated kinds.

Three behaviours of the code are worth knowing, and the model keeps them:

- **Single-letter keywords.** The keywords A, B, C and D are looked for with
  the raw f-string `rf"\\b{k}\\b"`. Its doubled backslashes ask for a
  literal backslash and a lower-case `b` on each side of the letter. That can
  never occur in upper-cased text, so these keywords never score
  (`PageClassifier.SingleLetterNeverScores`).
- **Band below the anchor.** The code gives "Door Schedule" a band of 1400
  points below the anchor and every other tag 600 + 1200 = 1800
  (`RegionExtractor.BottomBand`).
- **Expected issue counts.** The table of expected issues per page is keyed
  by "Interior Elevation" and "Reflected Ceiling Plan". The classifier's
  tags are "Interior Elevations" and "RCP / Ceiling", so pages with those
  labels get the default of 3 (`QualityAnalysis.ExpectedForClassifierLabels`).

## Model

| member | source | states |
|---|---|---|
| Text.Upper | src/page_classifier.py:73 | upper-casing keeps the length and maps every character independently; the result has no lower-case letter (`UpperHasNoLower`), and text without one is unchanged (`UpperFixesNoLower`) |
| Text.Strip | src/region_extractor.py:26 | the stripped text is a slice of the input with only whitespace before and after it; it starts and ends with a non-whitespace character, and is empty exactly when the input is all whitespace |
| Text.SplitLines | src/page_classifier.py:55 | splitting yields at least one piece and no piece contains a line break |
| Text.SplitLinesJoin | src/page_classifier.py:55 | there is one piece more than there are line breaks, and putting the breaks back between the pieces gives the text again |
| Text.NonBlankLinesEmptyIffBlank | src/page_classifier.py:55-57 | the list of stripped non-blank lines is empty exactly when the text is all whitespace |
| Text.NatToString | src/annotations.py:12 | the decimal rendering is non-empty, all digits, and without a leading zero for positive numbers |
| Text.NatToStringRoundTrip | src/annotations.py:12 | reading the rendered digits back gives the number (so rendering is injective) |
| Text.IntToStringInjective | src/annotations.py:12 | different integers, negative ones included, render as different strings |
| Schemas.ParseRuleset | src/schemas.py:4 | a ruleset literal is accepted exactly when it is FHA, ANSI_A1171_TYPE_A or ANSI_A1171_TYPE_B, and names the ruleset it parses to |
| Schemas.ParseLevel | src/schemas.py:7 | a severity or confidence literal is accepted exactly when it is High, Medium or Low |
| Schemas.RulesetNameRoundTrip | src/schemas.py:4 | every ruleset's name parses back to that ruleset |
| Schemas.LevelNameRoundTrip | src/schemas.py:12 | every level's name parses back to that level |
| PageClassifier.ScoreForKeyword | src/page_classifier.py:46-51 | a keyword with a space scores 3 if it occurs in the text and 0 otherwise; any other multi-character keyword scores 1 exactly when it occurs; a single letter scores 1 exactly when the literal pattern `\b<letter>\b` occurs |
| PageClassifier.SingleLetterNeverScores | src/page_classifier.py:49-50 | a single-letter keyword scores 0 on every upper-cased text |
| PageClassifier.KeywordScoreAppend | src/page_classifier.py:76-78 | a tag's keyword score is additive over its keyword list |
| PageClassifier.KeywordScoreZero | src/page_classifier.py:76-78 | when no keyword of the list scores, the list scores 0 |
| PageClassifier.TableBonus | src/page_classifier.py:54-62 | the bonus is 0 or 5; it is 0 for all-whitespace text and 5 for non-blank text with two header tokens; it is 5 exactly when the text has a non-blank line and either two header tokens or at least max(3, lines/10) lines with a run of two blanks |
| PageClassifier.ConfidenceForScore | src/page_classifier.py:65-69 | the tier is High exactly for scores of 8 or more, Medium exactly for 4 to 7, Low exactly below 4 (including 0) |
| PageClassifier.ConfidenceMonotone | src/page_classifier.py:39-43 | a higher score never gets a lower tier |
| PageClassifier.RetainTags | src/page_classifier.py:82-90 | a tag is retained exactly when it is in the list and scores at least 3 |
| PageClassifier.RetainTagsIncreasing | src/page_classifier.py:82-90 | retained tags keep the enumeration order |
| PageClassifier.Entries | src/page_classifier.py:82-90 | each entry carries its tag, the tag's score and that score's tier, in the given order |
| PageClassifier.ArgMaxFirst | src/page_classifier.py:93 | the chosen position holds the largest score and every earlier position holds a smaller one, as Python's `max` picks the first maximum |
| PageClassifier.InsertNonIncreasing | src/page_classifier.py:102 | inserting into a descending list keeps it descending |
| PageClassifier.InsertOrdered | src/page_classifier.py:102 | inserting a later tag after all equal scores keeps ties in enumeration order |
| PageClassifier.SortByScore | src/page_classifier.py:102 | sorting permutes the list into descending score order, and ties keep their original order when the input is in enumeration order |
| PageClassifier.ClassifyPage | src/page_classifier.py:72-103 | the result is never empty; raw scores cover all six tags; entries carry their score and tier, in descending score with ties in tag order; if some tag scores 3, the kept tags are exactly those scoring 3 or more; otherwise the single first tag with the largest score is kept |
| PageClassifier.NothingScoresOnEmptyText | src/page_classifier.py:46-51 | no tag scores on empty text |
| PageClassifier.AllZeroFallsBackToFloorPlan | src/page_classifier.py:92-100 | when every tag scores 0, the result is "Floor Plan" with score 0 and tier Low |
| PageClassifier.EmptyTextClassification | src/page_classifier.py:72-100 | missing or empty text is classified as "Floor Plan" with score 0 and tier Low |
| PageClassifier.SoleQualifyingTag | src/page_classifier.py:82-102 | when exactly one tag reaches 3, it is the whole result |
| PageClassifier.DoorSampleBonus | src/page_classifier.py:54-62 | the sample schedule text earns the table bonus |
| PageClassifier.DoorSampleScores | src/page_classifier.py:46-80 | on the sample schedule text "Door Schedule" scores 3+1+1+1+1+5 = 12 and every other tag 0 |
| PageClassifier.DoorScheduleExample | src/page_classifier.py:72-103 | the sample schedule text is classified as "Door Schedule" alone, with score 12 and tier High |
| RegionExtractor.AnchorPhrasesUpper | src/region_extractor.py:9-14 | every anchor phrase is upper-case, so matching upper-cased block text is case-insensitive |
| RegionExtractor.FirstPhrase | src/region_extractor.py:24-27 | no phrase is found exactly when none occurs; a found phrase occurs and no earlier phrase does |
| RegionExtractor.BlockAnchor | src/region_extractor.py:19-27 | a block yields an anchor exactly when its text is non-empty and mentions a phrase; the anchor keeps the block's box, its stripped text and the first phrase |
| RegionExtractor.FindAnchorBlocks | src/region_extractor.py:17-28 | at most one anchor per block, each with one of the phrases |
| RegionExtractor.FindAnchorBlocksEmptyIff | src/region_extractor.py:17-28 | no anchor is found exactly when no block yields one |
| RegionExtractor.FindAnchorBlocksAppend | src/region_extractor.py:17-28 | the anchors of concatenated block lists are the concatenated anchors, so block order is kept |
| RegionExtractor.FindAnchorBlocksSingle | src/region_extractor.py:19-27 | a single block yields exactly its own anchor, if any |
| RegionExtractor.MatchIgnoresCase | src/region_extractor.py:23-25 | a block whose upper-cased text contains a phrase yields an anchor, whatever the case of its letters |
| RegionExtractor.BottomBand | src/region_extractor.py:73-76 | the band below an anchor is 1400 points for "Door Schedule" and 1800 for every other tag |
| RegionExtractor.CropBox | src/region_extractor.py:78-83 | each side is the padded anchor edge (100 left, 50 up, 900 right, the band down) unless that leaves the page, in which case it is exactly 0, W or H; the crop covers an anchor edge that lies on the page |
| RegionExtractor.CropBoxContainsAnchor | src/region_extractor.py:78-83 | for an anchor on the page, the crop is well-formed, lies on the page and contains the anchor |
| RegionExtractor.Trunc | src/region_extractor.py:33 | `int()` truncates toward zero: at most one below a positive value and at most one above a negative one |
| RegionExtractor.TruncTowardZero | src/region_extractor.py:33 | truncation never moves away from zero and is symmetric under negation |
| RegionExtractor.CropPixels | src/region_extractor.py:31-36 | each pixel coordinate is the truncated scaled coordinate, replaced by 0 when that is negative (left, top) or by the image size when it exceeds it (right, bottom); so the rectangle lies within the image |
| RegionExtractor.CropPixelsApproximates | src/region_extractor.py:33-36 | for a box whose scaled corners lie on the image, each pixel coordinate is the truncated scaled coordinate |
| RegionExtractor.AnchorRegion | src/region_extractor.py:71-92 | an anchor region has the tag, confidence High and the anchor's text; its box is the anchor's crop box and its pixel rectangle is that box scaled to the image; it lies on the page and on the image |
| RegionExtractor.FallbackRegion | src/region_extractor.py:93-103 | the fallback region is the whole page, with empty anchor text and confidence Low, and its pixel rectangle is the whole page scaled to the image |
| RegionExtractor.AnchorRegions | src/region_extractor.py:70-92 | one region per anchor, in anchor order |
| RegionExtractor.RegionsFromAnchors | src/region_extractor.py:66-103 | a tag yields max(1, anchors) regions, all with the tag; they are High exactly when anchors exist, in which case region i is cropped around anchor i; otherwise the single whole-page fallback |
| RegionExtractor.ExtractRegionsCoverTags | src/region_extractor.py:66-103 | every selected tag has at least one region carrying it, so there are at least as many regions as tags |
| RegionExtractor.ExtractRegionsCrops | src/region_extractor.py:55-101 | every region's pixel rectangle is its page box scaled by dpi/72, truncated and clamped to the image |
| RegionExtractor.ExtractRegionsTags | src/region_extractor.py:66-103 | every region carries one of the selected tags |
| RegionExtractor.ExtractRegionsAppend | src/region_extractor.py:66-103 | regions follow the order of the selected tags |
| RegionExtractor.ExtractRegionsCount | src/region_extractor.py:66-103 | the number of regions is the sum over the selected tags of max(1, anchors) |
| RegionExtractor.NoVocabularyFallsBack | src/region_extractor.py:67-68 | a tag without anchor phrases always gets the whole-page fallback |
| RegionExtractor.NotesCodeHasNoVocabulary | src/region_extractor.py:9-14 | "Notes / Code" and "Details / Sections" have no anchor phrases |
| RegionExtractor.AnchorVocabularyOfClassifierTags | src/region_extractor.py:9-14 | of the classifier's tags exactly "Notes / Code" and "Details / Sections" have no anchor phrases |
| RegionExtractor.RegionsOnPage | src/region_extractor.py:78-94 | every region's box starts at or after the page origin and ends within the page size |
| RegionExtractor.DoorScheduleSingleAnchor | src/region_extractor.py:70-83 | a page whose only block mentions a door schedule, in any case, yields one High region reaching 1400 points below the block |
| Annotations.PositionalId | src/annotations.py:12 | a positional id starts with "p" |
| Annotations.PositionalIdInjective | src/annotations.py:12 | different (page, position) pairs get different positional ids |
| Annotations.EffectiveId | src/annotations.py:30 | an issue's id is never empty; it is its own id when it has one and its positional id "p{page}_i{position}" otherwise |
| Annotations.AssignPageIds | src/annotations.py:10-12 | only issue ids change on a page; each issue gets its own id or its positional one |
| Annotations.AssignIssueIds | src/annotations.py:7-13 | only the pages' issue ids change; page count and order are kept |
| Annotations.AssignIssueIdsFacts | src/annotations.py:9-12 | afterwards every issue has an id; present ids are kept; a missing one becomes "p{page}_i{position}"; no other field changes |
| Annotations.AssignIssueIdsKeepsComplete | src/annotations.py:11 | a review whose issues all have ids is returned unchanged |
| Annotations.AssignIssueIdsIdempotent | src/annotations.py:7-13 | assigning ids twice is assigning them once |
| Annotations.AssignedIdsDistinct | src/annotations.py:10-12 | ids filled in on one page are pairwise distinct |
| Annotations.Dismissed | src/annotations.py:23 | the dismissed set holds exactly the listed ids, and is empty when none are given |
| Annotations.Annotate | src/annotations.py:34-39 | only severity and note change; the severity becomes the override exactly when the override is High, Medium or Low; the note is replaced exactly when a non-empty note is given |
| Annotations.AnnotateIdempotent | src/annotations.py:34-39 | annotating twice is annotating once |
| Annotations.Survivors | src/annotations.py:28-41 | no surviving issue has a dismissed id, and none is added |
| Annotations.SurvivorsAppend | src/annotations.py:28-41 | filtering concatenated lists concatenates the survivors, so relative order is kept |
| Annotations.SurvivorsSingle | src/annotations.py:32-40 | one issue survives, annotated, exactly when its id is not dismissed |
| Annotations.SurvivorsCount | src/annotations.py:28-41 | the number of survivors is the number of issues whose id is not dismissed |
| Annotations.SurvivorsKeepUndismissed | src/annotations.py:32-40 | every issue whose id is not dismissed is among the survivors, annotated |
| Annotations.SurvivorsComeFromInput | src/annotations.py:29-40 | every survivor is an annotated input issue |
| Annotations.ApplyPage | src/annotations.py:27-41 | a page keeps every field except its issue list |
| Annotations.ApplyAnnotations | src/annotations.py:16-43 | page count and all page and review fields other than issues are kept; each page keeps as many issues as it has undismissed ones; every remaining issue has an id (which issues remain is stated by `ApplyRemovesExactlyDismissed`) |
| Annotations.SurvivorsWithoutAnnotations | src/annotations.py:23-25 | with no annotations every issue survives unchanged |
| Annotations.ApplyNoAnnotations | src/annotations.py:23-31 | missing annotation keys count as empty, and then applying only fills in missing ids |
| Annotations.AssignPageIdsIdempotent | src/annotations.py:10-12 | filling ids on a page twice is filling them once |
| Annotations.ApplyAfterAssign | src/annotations.py:30-31 | assigning ids before applying annotations changes nothing |
| Annotations.SurvivorsIdempotent | src/annotations.py:28-41 | filtering and annotating survivors again changes nothing |
| Annotations.ApplyIdempotent | src/annotations.py:27-43 | applying the same annotations twice is applying them once |
| Annotations.ApplyRemovesExactlyDismissed | src/annotations.py:30-40 | an issue is dropped exactly when its effective id is dismissed; otherwise it remains, annotated |
| Annotations.SeverityOverrideAfterAssign | tests/test_pdf_annotations.py:34-42 | after id assignment, an override keyed by the filled-in id sets the severity of a one-issue review, and nothing else changes |
| QualityAnalysis.CountIssues | src/quality_analysis.py:30-36 | a count is at most the number of issues; it is all of them when every issue qualifies and 0 when none does |
| QualityAnalysis.CountIssuesAppend | src/quality_analysis.py:30-36 | counts are additive over concatenated issue lists |
| QualityAnalysis.CountIssuesSingle | src/quality_analysis.py:31-36 | one issue counts once exactly when it has the attribute |
| QualityAnalysis.CountAll | src/quality_analysis.py:28-36 | each attribute count is at most the total number of issues |
| QualityAnalysis.CountAllEveryIssue | src/quality_analysis.py:28-36 | when every issue has the attribute, the count is the total |
| QualityAnalysis.TotalIssuesAppend | src/quality_analysis.py:28-29 | the total is additive over pages |
| QualityAnalysis.TotalIssuesZero | src/quality_analysis.py:28-29 | the total is 0 exactly when every page has no issues |
| QualityAnalysis.DigitInFindingIsMeasurement | src/quality_analysis.py:33 | a digit in the finding makes an issue count as one with a measurement |
| QualityAnalysis.ExpectedForLabel | src/quality_analysis.py:12-46 | "Floor Plan" expects 5 issues, "Reflected Ceiling Plan" 2, and every other label 3 |
| QualityAnalysis.ExpectedForClassifierLabels | src/quality_analysis.py:12-46 | of the classifier's labels only "Floor Plan" expects 5; every other one expects 3 |
| QualityAnalysis.ExpectedTotal | src/quality_analysis.py:45-48 | the expected total lies between 2 and 5 per page, so it is 0 only without pages |
| QualityAnalysis.GuardedRatio | src/quality_analysis.py:39 | the ratio is 0 without a denominator or numerator, non-negative, and at most 1 for a part of the whole |
| QualityAnalysis.Percentage | src/quality_analysis.py:42 | the percentage is 0 without a denominator, lies in [0, 100] for a part of the whole, and is 100 for the whole |
| QualityAnalysis.CalculateMetrics | src/quality_analysis.py:21-60 | total is the sum of page issue counts; the three attribute counts are the numbers of High-confidence, measured and referenced issues over all pages; the average and confidence are the guarded ratios; completeness is min(100, total over expected as a percentage); confidence and completeness lie in [0, 100]; everything is 0 for an empty review |
| QualityAnalysis.QualityWarnings | src/quality_analysis.py:63-91 | a warning is present exactly when its threshold is met, at most once each, in the fixed order |
| QualityAnalysis.SuggestImprovements | src/quality_analysis.py:94-121 | a suggestion is present exactly when its threshold is met, in the fixed order; 1 to 4 entries, always ending with the follow-up review |
| QualityAnalysis.ReferencesAdviceMatchesWarning | src/quality_analysis.py:79-110 | the add-references suggestion is given exactly when the missing-references warning is raised |
| QualityAnalysis.NoIssuesThreeWarnings | src/quality_analysis.py:67-89 | a review without issues gets exactly the low-count, low-confidence and incomplete warnings |
| QualityAnalysis.NoIssuesSuggestions | src/quality_analysis.py:98-119 | a review without issues gets exactly the better-images and follow-up suggestions |
| QualityAnalysis.AllReferencedNoWarning | src/quality_analysis.py:79 | when every issue cites a reference, no missing-references warning is raised |
| QualityAnalysis.AllHighConfidenceScore | src/quality_analysis.py:42 | when every issue is of high confidence, the confidence score is 100, or 0 for a review without issues |

## Left out

- Opening the PDF, reading its text blocks and rendering the page (`fitz`)
  are left out. The page size, the blocks and the raster size are
  parameters.
- Cutting and PNG-encoding the image (`PIL`) is left out. A region carries
  the pixel rectangle handed to the crop instead of the PNG bytes.
- An inverted pixel rectangle (right below left) is not modelled as an
  error, although the image library may reject it. Neither is a page index
  out of range.
- Text.Upper: only ASCII letters are upper-cased. Python's full Unicode
  case mapping, including length-changing mappings such as "ß" to "SS", is
  not modelled.
- Text.SplitLines: empty pieces differ from Python's `splitlines`. Empty
  text gives one empty piece, a trailing break adds an empty last piece, and
  "\r\n" counts as two breaks. The only caller, `NonBlankLines`, discards
  empty pieces, so the table bonus is unaffected.
- QualityAnalysis.DigitInFindingIsMeasurement: only ASCII digits count.
  Python's `isdigit` also accepts other Unicode digits.
- QualityAnalysis.SuggestImprovements: the measurement threshold is the
  exact 3/10 of the total, where Python compares with the float product
  `total * 0.3`. Floating point is not modelled. For integer totals the two
  comparisons agree: the error in representing 0.3 is below half a unit in
  the last place, so the float product is exactly 3/10 of the total
  whenever that is a whole number. The other thresholds (0.5, and the
  comparisons of integer ratios with 3, 30, 50 and 60) agree with exact
  arithmetic as well.
- RegionExtractor.CropPixels: the scaled coordinate is the exact product of
  the point coordinate and dpi/72. Python truncates a float product, which
  can land just below a whole number; 648 points at 55 dpi are exactly 495
  pixels, but the float product falls just short and truncates to 494.
  Pixel coordinates can therefore differ by one from the source's.
- QualityAnalysis.CalculateMetrics: `ReviewQualityMetrics`, which
  src/quality_analysis.py imports from src/schemas.py and builds at lines
  51-60, is not defined in src/schemas.py. The model's `Metrics` record takes
  its field names from that constructor call; the five counts are naturals
  and the average and the two scores are reals.
- QualityAnalysis.CalculateMetrics: the average and the scores are exact
  rationals. Python computes them in floating point, which can differ in the
  last bit. The `:.1f`/`:.0f` formatting of the warning texts is not
  modelled; warnings and suggestions are their kinds.
- Annotations.ApplyAnnotations: a plain dictionary review is validated into
  a `ReviewResult` by the schema library, which is not modelled; the review
  is taken as already valid.
- Annotations.ApplyAnnotations: a `dismissed_issues` entry present with the
  value `None` raises a `TypeError` in the source. In the model the absent
  key (`None`) means "no dismissals".
- Annotations.AssignIssueIds: issues are values. The source fills ids in
  place on a deep copy, which keeps shared references. So a review built by
  hand that lists one `Issue` object at two positions of a page gets the
  first position's id at both, and an override or note applied through one
  position shows at the other. The model gives each position its own id and
  annotation, so `AssignedIdsDistinct` holds only for reviews without such
  sharing. A review validated from JSON or a dictionary has no shared issues.
- Annotations.Annotate: note and override values are strings. The source
  would also attach a non-string truthy note.
- `Schemas`: an issue id that is `None` and one that is `""` are both falsy
  in the source. Both are modelled as `""`.
- The LLM call, the report PDF, storage, authentication and the web UI lie
  outside the core and are not part of this model.

=== FILE: annotations.dfy ===
/**
 Reviewer annotations on a finished review: stable issue ids, dismissals,
 severity overrides and notes. Both operations return a new review and
 leave their input untouched (values here are immutable). An issue is a
 value, so two positions of a page never share one issue object.
 */
module Annotations {
  import opened Text
  import opened Schemas

  // ---- issue ids ----

  /** The id an issue without one gets: `p{page_index}_i{idx}`. */
  function PositionalId(pageIndex: int, idx: nat): (id: string)
    ensures |id| >= 4 && id[0] == 'p'
  {
    "p" + IntToString(pageIndex) + "_i" + NatToString(idx)
  }

  predicate NoUnderscore(s: string) {
    forall i :: 0 <= i < |s| ==> s[i] != '_'
  }

  lemma IntToStringNoUnderscore(n: int)
    ensures NoUnderscore(IntToString(n))
  {
    var s := NatToString(if n >= 0 then n else -n);
    assert forall i :: 0 <= i < |s| ==> IsDigit(s[i]);
  }

  /** `"p" + a + "_i" + b` determines `a` and `b` when `a` has no underscore. */
  lemma SplitAtUnderscore(a1: string, b1: string, a2: string, b2: string)
    requires NoUnderscore(a1) && NoUnderscore(a2)
    requires "p" + a1 + "_i" + b1 == "p" + a2 + "_i" + b2
    ensures a1 == a2 && b1 == b2
  {
    var s1 := "p" + a1 + "_i" + b1;
    var s2 := "p" + a2 + "_i" + b2;
    assert s1[1 + |a1|] == '_';
    assert s2[1 + |a2|] == '_';
    assert |a1| == |a2|;
    assert a1 == s1[1..1 + |a1|];
    assert a2 == s2[1..1 + |a2|];
    assert b1 == s1[3 + |a1|..];
    assert b2 == s2[3 + |a2|..];
  }

  /** Distinct positions get distinct ids. */
  lemma PositionalIdInjective(p1: int, i1: nat, p2: int, i2: nat)
    requires PositionalId(p1, i1) == PositionalId(p2, i2)
    ensures p1 == p2 && i1 == i2
  {
    IntToStringNoUnderscore(p1);
    IntToStringNoUnderscore(p2);
    SplitAtUnderscore(IntToString(p1), NatToString(i1), IntToString(p2), NatToString(i2));
    NatToStringInjective(i1, i2);
    IntToStringInjective(p1, p2);
  }

  /** The id an issue is known by: its own, or its positional one when it has none. */
  function EffectiveId(pageIndex: int, idx: nat, issue: Issue): (id: string)
    ensures id != []
    ensures issue.issueId != [] ==> id == issue.issueId
    ensures issue.issueId == [] ==> id == PositionalId(pageIndex, idx)
  {
    if issue.issueId != [] then issue.issueId else PositionalId(pageIndex, idx)
  }

  function AssignPageIds(page: PageReview): (p: PageReview)
    ensures p.(issues := page.issues) == page
    ensures |p.issues| == |page.issues|
    ensures forall i :: 0 <= i < |p.issues| ==>
      p.issues[i] == page.issues[i].(issueId := EffectiveId(page.pageIndex, i, page.issues[i]))
  {
    page.(issues := seq(|page.issues|, i requires 0 <= i < |page.issues| =>
      page.issues[i].(issueId := EffectiveId(page.pageIndex, i, page.issues[i]))))
  }

  /** `assign_issue_ids`: fills every missing id with its positional id. */
  function AssignIssueIds(review: ReviewResult): (r: ReviewResult)
    ensures r.(pages := review.pages) == review
    ensures |r.pages| == |review.pages|
    ensures forall k :: 0 <= k < |r.pages| ==> r.pages[k] == AssignPageIds(review.pages[k])
  {
    review.(pages := seq(|review.pages|, k requires 0 <= k < |review.pages| => AssignPageIds(review.pages[k])))
  }

  /** Every issue has an id. */
  predicate AllIdsSet(review: ReviewResult) {
    forall k, i :: 0 <= k < |review.pages| && 0 <= i < |review.pages[k].issues| ==>
      review.pages[k].issues[i].issueId != []
  }

  /** After assignment every issue has an id; ids already present are kept,
      and a filled-in id names the issue's page and position. */
  lemma AssignIssueIdsFacts(review: ReviewResult)
    ensures AllIdsSet(AssignIssueIds(review))
    ensures forall k, i :: 0 <= k < |review.pages| && 0 <= i < |review.pages[k].issues| ==>
      var before := review.pages[k].issues[i];
      var after := AssignIssueIds(review).pages[k].issues[i];
      after.(issueId := before.issueId) == before
      && (before.issueId != [] ==> after.issueId == before.issueId)
      && (before.issueId == [] ==> after.issueId == PositionalId(review.pages[k].pageIndex, i))
  {
  }

  /** A review whose issues all have ids is left as it is. */
  lemma AssignIssueIdsKeepsComplete(review: ReviewResult)
    requires AllIdsSet(review)
    ensures AssignIssueIds(review) == review
  {
    var r := AssignIssueIds(review);
    forall k | 0 <= k < |review.pages| ensures r.pages[k] == review.pages[k] {
      var p := review.pages[k];
      assert forall i :: 0 <= i < |p.issues| ==> p.issues[i].issueId != [];
      assert AssignPageIds(p).issues == p.issues;
    }
  }

  lemma AssignIssueIdsIdempotent(review: ReviewResult)
    ensures AssignIssueIds(AssignIssueIds(review)) == AssignIssueIds(review)
  {
    AssignIssueIdsFacts(review);
    AssignIssueIdsKeepsComplete(AssignIssueIds(review));
  }

  /** Ids filled in on one page are pairwise distinct. */
  lemma AssignedIdsDistinct(page: PageReview, i: nat, j: nat)
    requires i < j < |page.issues|
    requires page.issues[i].issueId == [] && page.issues[j].issueId == []
    ensures AssignPageIds(page).issues[i].issueId != AssignPageIds(page).issues[j].issueId
  {
    if PositionalId(page.pageIndex, i) == PositionalId(page.pageIndex, j) {
      PositionalIdInjective(page.pageIndex, i, page.pageIndex, j);
    }
  }

  // ---- annotations ----

  /** The reviewer's annotations; `None` stands for a key that is absent or
      holds an empty value. */
  datatype Annotations = Annotations(
    dismissedIssues: Option<seq<string>>,
    notes: Option<map<string, string>>,
    severityOverrides: Option<map<string, string>>)

  const NoAnnotations := Annotations(None, None, None)

  function Dismissed(a: Annotations): (d: set<string>)
    ensures a.dismissedIssues.Some? ==> forall id :: id in d <==> id in a.dismissedIssues.value
    ensures a.dismissedIssues.None? ==> d == {}
  {
    match a.dismissedIssues
    case None => {}
    case Some(ids) => set id | id in ids
  }

  /** `m.get(key)`, `""` standing for a missing entry. */
  function Lookup(m: Option<map<string, string>>, key: string): string {
    match m
    case Some(entries) => if key in entries then entries[key] else ""
    case None => ""
  }

  /** The override and note of one (already identified, not dismissed) issue. */
  function Annotate(issue: Issue, a: Annotations): (r: Issue)
    ensures r.(severity := issue.severity, reviewerNote := issue.reviewerNote) == issue
    ensures ParseLevel(Lookup(a.severityOverrides, issue.issueId)).Some? ==>
      LevelName(r.severity) == Lookup(a.severityOverrides, issue.issueId)
    ensures ParseLevel(Lookup(a.severityOverrides, issue.issueId)).None? ==> r.severity == issue.severity
    ensures Lookup(a.notes, issue.issueId) != [] ==> r.reviewerNote == Lookup(a.notes, issue.issueId)
    ensures Lookup(a.notes, issue.issueId) == [] ==> r.reviewerNote == issue.reviewerNote
  {
    var id := issue.issueId;
    var severity := ParseLevel(Lookup(a.severityOverrides, id)).GetOr(issue.severity);
    var note := Lookup(a.notes, id);
    issue.(severity := severity, reviewerNote := if note != [] then note else issue.reviewerNote)
  }

  /** Annotating twice is annotating once. */
  lemma AnnotateIdempotent(issue: Issue, a: Annotations)
    ensures Annotate(Annotate(issue, a), a) == Annotate(issue, a)
  {
  }

  /** The surviving issues of an identified list, annotated, in their order. */
  function Survivors(issues: seq<Issue>, a: Annotations): (r: seq<Issue>)
    ensures |r| <= |issues|
    ensures forall i :: 0 <= i < |r| ==> r[i].issueId !in Dismissed(a)
  {
    if |issues| == 0 then []
    else if issues[0].issueId in Dismissed(a) then Survivors(issues[1..], a)
    else [Annotate(issues[0], a)] + Survivors(issues[1..], a)
  }

  lemma {:induction false} SurvivorsAppend(xs: seq<Issue>, ys: seq<Issue>, a: Annotations)
    ensures Survivors(xs + ys, a) == Survivors(xs, a) + Survivors(ys, a)
  {
    if |xs| == 0 {
      assert xs + ys == ys;
    } else {
      assert (xs + ys)[0] == xs[0];
      assert (xs + ys)[1..] == xs[1..] + ys;
      SurvivorsAppend(xs[1..], ys, a);
    }
  }

  /** One issue survives, annotated, exactly when its id is not dismissed. */
  lemma SurvivorsSingle(issue: Issue, a: Annotations)
    ensures Survivors([issue], a) == if issue.issueId in Dismissed(a) then [] else [Annotate(issue, a)]
  {
    assert [issue][1..] == [];
  }

  /** How many issues of the list are not dismissed. */
  function KeptCount(issues: seq<Issue>, dismissed: set<string>): nat {
    if |issues| == 0 then 0
    else (if issues[0].issueId in dismissed then 0 else 1) + KeptCount(issues[1..], dismissed)
  }

  lemma {:induction false} SurvivorsCount(issues: seq<Issue>, a: Annotations)
    ensures |Survivors(issues, a)| == KeptCount(issues, Dismissed(a))
  {
    if |issues| > 0 {
      SurvivorsCount(issues[1..], a);
    }
  }

  /** An issue whose id is not dismissed survives, annotated. */
  lemma {:induction false} SurvivorsKeepUndismissed(issues: seq<Issue>, a: Annotations, i: nat)
    requires i < |issues| && issues[i].issueId !in Dismissed(a)
    ensures Annotate(issues[i], a) in Survivors(issues, a)
  {
    if i > 0 {
      assert issues[1..][i - 1] == issues[i];
      SurvivorsKeepUndismissed(issues[1..], a, i - 1);
    }
  }

  /** Every survivor is an annotated input issue. */
  lemma {:induction false} SurvivorsComeFromInput(issues: seq<Issue>, a: Annotations)
    ensures forall x | x in Survivors(issues, a) :: exists i :: 0 <= i < |issues| && x == Annotate(issues[i], a)
  {
    if |issues| > 0 {
      SurvivorsComeFromInput(issues[1..], a);
      forall x | x in Survivors(issues, a) ensures exists i :: 0 <= i < |issues| && x == Annotate(issues[i], a) {
        if x in Survivors(issues[1..], a) {
          var j :| 0 <= j < |issues[1..]| && x == Annotate(issues[1..][j], a);
          assert issues[j + 1] == issues[1..][j];
        } else {
          assert x == Annotate(issues[0], a);
        }
      }
    }
  }

  function ApplyPage(page: PageReview, a: Annotations): (p: PageReview)
    ensures p.(issues := page.issues) == page
  {
    page.(issues := Survivors(AssignPageIds(page).issues, a))
  }

  /** `apply_annotations`: every issue gets its id (positional when missing);
      dismissed issues are dropped; a valid severity override and a non-empty
      note are applied to the rest, which keep their order. */
  function ApplyAnnotations(review: ReviewResult, a: Annotations): (r: ReviewResult)
    ensures r.(pages := review.pages) == review
    ensures |r.pages| == |review.pages|
    ensures forall k :: 0 <= k < |r.pages| ==> r.pages[k].(issues := review.pages[k].issues) == review.pages[k]
    ensures forall k :: 0 <= k < |r.pages| ==>
      |r.pages[k].issues| == KeptCount(AssignPageIds(review.pages[k]).issues, Dismissed(a))
    ensures AllIdsSet(r)
  {
    var r := review.(pages := seq(|review.pages|, k requires 0 <= k < |review.pages| => ApplyPage(review.pages[k], a)));
    forall k | 0 <= k < |review.pages|
      ensures |r.pages[k].issues| == KeptCount(AssignPageIds(review.pages[k]).issues, Dismissed(a))
      ensures forall i :: 0 <= i < |r.pages[k].issues| ==> r.pages[k].issues[i].issueId != []
    {
      var ided := AssignPageIds(review.pages[k]).issues;
      SurvivorsCount(ided, a);
      SurvivorsComeFromInput(ided, a);
      forall i | 0 <= i < |r.pages[k].issues| ensures r.pages[k].issues[i].issueId != [] {
        assert r.pages[k].issues[i] in Survivors(ided, a);
      }
    }
    r
  }

  // ---- properties of apply_annotations ----

  lemma {:induction false} SurvivorsWithoutAnnotations(issues: seq<Issue>)
    ensures Survivors(issues, NoAnnotations) == issues
  {
    if |issues| > 0 {
      SurvivorsWithoutAnnotations(issues[1..]);
      assert issues == [issues[0]] + issues[1..];
    }
  }

  /** With no annotations, applying them only fills in the missing ids. */
  lemma ApplyNoAnnotations(review: ReviewResult)
    ensures ApplyAnnotations(review, NoAnnotations) == AssignIssueIds(review)
  {
    var r := ApplyAnnotations(review, NoAnnotations);
    forall k | 0 <= k < |review.pages| ensures r.pages[k] == AssignIssueIds(review).pages[k] {
      SurvivorsWithoutAnnotations(AssignPageIds(review.pages[k]).issues);
    }
  }

  lemma AssignPageIdsIdempotent(page: PageReview)
    ensures AssignPageIds(AssignPageIds(page)) == AssignPageIds(page)
  {
    var p := AssignPageIds(page);
    assert AssignPageIds(p).issues == p.issues;
  }

  /** Assigning ids first changes nothing: apply_annotations fills them the same way. */
  lemma ApplyAfterAssign(review: ReviewResult, a: Annotations)
    ensures ApplyAnnotations(AssignIssueIds(review), a) == ApplyAnnotations(review, a)
  {
    var r1 := ApplyAnnotations(AssignIssueIds(review), a);
    var r2 := ApplyAnnotations(review, a);
    forall k | 0 <= k < |review.pages| ensures r1.pages[k] == r2.pages[k] {
      AssignPageIdsIdempotent(review.pages[k]);
    }
  }

  /** Survivors keep their ids, which are not dismissed, so a second pass
      keeps them all and annotates them to the same values. */
  lemma {:induction false} SurvivorsIdempotent(issues: seq<Issue>, a: Annotations)
    ensures Survivors(Survivors(issues, a), a) == Survivors(issues, a)
  {
    if |issues| > 0 {
      SurvivorsIdempotent(issues[1..], a);
      var rest := Survivors(issues[1..], a);
      if issues[0].issueId !in Dismissed(a) {
        var x := Annotate(issues[0], a);
        AnnotateIdempotent(issues[0], a);
        assert ([x] + rest)[0] == x && ([x] + rest)[1..] == rest;
      }
    }
  }

  /** Applying the same annotations twice is applying them once. */
  lemma ApplyIdempotent(review: ReviewResult, a: Annotations)
    ensures ApplyAnnotations(ApplyAnnotations(review, a), a) == ApplyAnnotations(review, a)
  {
    var once := ApplyAnnotations(review, a);
    var twice := ApplyAnnotations(once, a);
    forall k | 0 <= k < |review.pages| ensures twice.pages[k] == once.pages[k] {
      var p := once.pages[k];
      assert forall i :: 0 <= i < |p.issues| ==> p.issues[i].issueId != [];
      assert AssignPageIds(p).issues == p.issues;
      SurvivorsIdempotent(AssignPageIds(review.pages[k]).issues, a);
    }
  }

  /** An issue is dropped exactly when its effective id is dismissed; the
      others remain, annotated. */
  lemma ApplyRemovesExactlyDismissed(review: ReviewResult, a: Annotations, k: nat, i: nat)
    requires k < |review.pages| && i < |review.pages[k].issues|
    ensures var page := review.pages[k];
      var issue := page.issues[i].(issueId := EffectiveId(page.pageIndex, i, page.issues[i]));
      var kept := ApplyAnnotations(review, a).pages[k].issues;
      (issue.issueId !in Dismissed(a) ==> Annotate(issue, a) in kept)
      && (issue.issueId in Dismissed(a) ==> forall x | x in kept :: x.issueId != issue.issueId)
  {
    var page := review.pages[k];
    var ided := AssignPageIds(page).issues;
    if ided[i].issueId !in Dismissed(a) {
      SurvivorsKeepUndismissed(ided, a, i);
    }
  }

  /** A one-issue review without an id: after id assignment, an override
      keyed by the filled-in id sets the severity, and nothing else changes. */
  lemma SeverityOverrideAfterAssign(review: ReviewResult, level: Level)
    requires |review.pages| == 1 && |review.pages[0].issues| == 1
    requires review.pages[0].issues[0].issueId == []
    ensures var id := PositionalId(review.pages[0].pageIndex, 0);
      var a := Annotations(Some([]), Some(map[]), Some(map[id := LevelName(level)]));
      ApplyAnnotations(AssignIssueIds(review), a).pages[0].issues
        == [review.pages[0].issues[0].(issueId := id, severity := level)]
  {
    var id := PositionalId(review.pages[0].pageIndex, 0);
    var a := Annotations(Some([]), Some(map[]), Some(map[id := LevelName(level)]));
    ApplyAfterAssign(review, a);
    LevelNameRoundTrip(level);
    var ided := AssignPageIds(review.pages[0]).issues;
    assert ided == [ided[0]];
    SurvivorsSingle(ided[0], a);
  }
}

=== FILE: page_classifier.dfy ===
/**
 Page classification: the upper-cased page text is scored against a fixed
 keyword vocabulary per content tag, "Door Schedule" gets a table-shape
 bonus, every score is banded into a confidence tier, tags scoring at
 least 3 are kept (or the single best tag when none is), and the kept tags
 are sorted by score with a stable sort.
 */
module PageClassifier {
  import opened Text
  import opened Schemas

  datatype Tag = FloorPlan | InteriorElevations | RcpCeiling | DoorSchedule | NotesCode | DetailsSections

  /** The fixed enumeration order of the tags. */
  const Tags: seq<Tag> := [FloorPlan, InteriorElevations, RcpCeiling, DoorSchedule, NotesCode, DetailsSections]

  function TagIndex(t: Tag): (i: nat)
    ensures i < |Tags| && Tags[i] == t
  {
    match t
    case FloorPlan => 0
    case InteriorElevations => 1
    case RcpCeiling => 2
    case DoorSchedule => 3
    case NotesCode => 4
    case DetailsSections => 5
  }

  function TagName(t: Tag): string {
    match t
    case FloorPlan => "Floor Plan"
    case InteriorElevations => "Interior Elevations"
    case RcpCeiling => "RCP / Ceiling"
    case DoorSchedule => "Door Schedule"
    case NotesCode => "Notes / Code"
    case DetailsSections => "Details / Sections"
  }

  function Keywords(t: Tag): seq<string> {
    match t
    case FloorPlan => ["FLOOR PLAN", "UNIT PLAN", "PLAN", "DIMENSION", "ROOM", "DWG SCALE"]
    case InteriorElevations =>
      ["INTERIOR ELEVATION", "ELEVATION", "CABINET ELEV", "TILE ELEV", "A", "B", "C", "D"]
    case RcpCeiling =>
      ["RCP", "REFLECTED CEILING", "CEILING PLAN", "LIGHTING", "SMOKE", "SPRINKLER", "DIFFUSER"]
    case DoorSchedule =>
      ["DOOR SCHEDULE", "DOOR", "MARK", "WIDTH", "HEIGHT", "FRAME", "HARDWARE", "HINGE", "SET"]
    case NotesCode => ["GENERAL NOTES", "ACCESSIBILITY", "ADA", "ANSI", "FHA", "CODE", "SPEC"]
    case DetailsSections => ["DETAIL", "SECTION", "CALLOUT", "TYP.", "ENLARGED"]
  }

  /** Score thresholds checked in descending order; the first one met gives the tier. */
  const ConfidenceThresholds: seq<(int, Level)> := [(8, High), (4, Medium), (1, Low)]

  /** The table-header tokens counted by the table bonus. */
  const HeaderTokens: seq<string> := ["WIDTH", "HEIGHT", "TYPE", "MARK"]

  // ---- keyword scoring ----

  /** What the single-letter regular expression actually matches: the raw
      pattern has doubled backslashes, so it asks for a literal backslash and
      a lower-case `b` on each side of the letter. */
  function BoundaryPattern(keyword: string): string {
    "\\b" + keyword + "\\b"
  }

  /** Contribution of one keyword to its tag's score. */
  function ScoreForKeyword(text: string, keyword: string): (r: nat)
    ensures ' ' in keyword ==> (r == 3 <==> IsSubstring(keyword, text)) && (r == 0 <==> !IsSubstring(keyword, text))
    ensures ' ' !in keyword && |keyword| != 1 ==> (r == 1 <==> IsSubstring(keyword, text)) && r <= 1
    ensures ' ' !in keyword && |keyword| == 1 ==> (r == 1 <==> IsSubstring(BoundaryPattern(keyword), text)) && r <= 1
  {
    if ' ' in keyword then (if IsSubstring(keyword, text) then 3 else 0)
    else if |keyword| == 1 then (if IsSubstring(BoundaryPattern(keyword), text) then 1 else 0)
    else if IsSubstring(keyword, text) then 1 else 0
  }

  /** A single-letter keyword never scores on upper-cased text. */
  lemma SingleLetterNeverScores(text: string, keyword: string)
    requires |keyword| == 1 && keyword != " "
    ensures ScoreForKeyword(Upper(text), keyword) == 0
  {
    var p := BoundaryPattern(keyword);
    assert p[1] == 'b';
    UpperHasNoLower(text);
    AbsentCharNoSubstring(p, Upper(text), 1, 'b');
  }

  function KeywordScore(text: string, keywords: seq<string>): (r: nat)
    ensures r <= 3 * |keywords|
  {
    if |keywords| == 0 then 0 else ScoreForKeyword(text, keywords[0]) + KeywordScore(text, keywords[1..])
  }

  lemma {:induction false} KeywordScoreAppend(text: string, a: seq<string>, b: seq<string>)
    ensures KeywordScore(text, a + b) == KeywordScore(text, a) + KeywordScore(text, b)
  {
    if |a| > 0 {
      assert (a + b)[0] == a[0];
      assert (a + b)[1..] == a[1..] + b;
      KeywordScoreAppend(text, a[1..], b);
    } else {
      assert a + b == b;
    }
  }

  lemma KeywordScoreCons(text: string, keyword: string, rest: seq<string>)
    ensures KeywordScore(text, [keyword] + rest) == ScoreForKeyword(text, keyword) + KeywordScore(text, rest)
  {
    assert ([keyword] + rest)[1..] == rest;
  }

  lemma {:induction false} KeywordScoreZero(text: string, keywords: seq<string>)
    requires forall k :: 0 <= k < |keywords| ==> ScoreForKeyword(text, keywords[k]) == 0
    ensures KeywordScore(text, keywords) == 0
  {
    if |keywords| > 0 {
      KeywordScoreZero(text, keywords[1..]);
    }
  }

  // ---- table bonus ----

  /** The regular expression `\S+\s{2,}\S+` finds a match in `line`. */
  predicate HasSpacedRun(line: string) {
    exists i, j | 0 <= i && i + 3 <= j < |line| ::
      !IsSpace(line[i]) && !IsSpace(line[j]) && AllSpace(line[i + 1..j])
  }

  function SpacedLineCount(lines: seq<string>): (n: nat)
    ensures n <= |lines|
  {
    if |lines| == 0 then 0
    else (if HasSpacedRun(lines[0]) then 1 else 0) + SpacedLineCount(lines[1..])
  }

  function CountPresent(text: string, tokens: seq<string>): (n: nat)
    ensures n <= |tokens|
  {
    if |tokens| == 0 then 0
    else (if IsSubstring(tokens[0], text) then 1 else 0) + CountPresent(text, tokens[1..])
  }

  /** How many of WIDTH/HEIGHT/TYPE/MARK occur in the text. */
  function HeaderHits(text: string): (n: nat)
    ensures n <= 4
  {
    CountPresent(text, HeaderTokens)
  }

  function Max(a: int, b: int): int { if a >= b then a else b }

  /** The table-shape bonus: 5 when the text has a non-blank line and either
      enough lines with a run of two or more blanks, or two header tokens. */
  function TableBonus(text: string): (r: nat)
    ensures r == 0 || r == 5
    ensures AllSpace(text) ==> r == 0
    ensures !AllSpace(text) && HeaderHits(text) >= 2 ==> r == 5
    ensures r == 5 <==>
      !AllSpace(text)
      && (HeaderHits(text) >= 2 || SpacedLineCount(NonBlankLines(text)) >= Max(3, |NonBlankLines(text)| / 10))
  {
    var lines := NonBlankLines(text);
    NonBlankLinesEmptyIffBlank(text);
    if |lines| == 0 then 0
    else if SpacedLineCount(lines) >= Max(3, |lines| / 10) || HeaderHits(text) >= 2 then 5
    else 0
  }

  // ---- confidence tiers ----

  /** Walks a threshold table in order and returns the label of the first
      threshold the score reaches, or Low. */
  function TierFrom(score: int, table: seq<(int, Level)>): Level {
    if |table| == 0 then Low
    else if score >= table[0].0 then table[0].1
    else TierFrom(score, table[1..])
  }

  function ConfidenceForScore(score: int): (l: Level)
    ensures l == High <==> score >= 8
    ensures l == Medium <==> 4 <= score < 8
    ensures l == Low <==> score < 4
  {
    var t := ConfidenceThresholds;
    // The asserts unfold the table one threshold at a time, from the last.
    assert TierFrom(score, t[1..][1..][1..]) == Low;
    assert TierFrom(score, t[1..][1..]) == Low;
    assert TierFrom(score, t[1..]) == if score >= 4 then Medium else Low;
    TierFrom(score, t)
  }

  function LevelRank(l: Level): nat {
    match l
    case Low => 0
    case Medium => 1
    case High => 2
  }

  /** A higher score never gets a lower tier. */
  lemma ConfidenceMonotone(a: int, b: int)
    requires a <= b
    ensures LevelRank(ConfidenceForScore(a)) <= LevelRank(ConfidenceForScore(b))
  {
  }

  // ---- per-tag scores ----

  /** The text every keyword is matched against: `(text or "").upper()`. */
  function Combined(text: Option<string>): string {
    Upper(text.GetOr(""))
  }

  /** A tag's raw score: its keyword contributions, plus the table bonus for "Door Schedule". */
  function Score(combined: string, t: Tag): nat {
    KeywordScore(combined, Keywords(t)) + (if t == DoorSchedule then TableBonus(combined) else 0)
  }

  datatype TagResult = TagResult(tag: Tag, score: int, confidence: Level)

  function Entry(combined: string, t: Tag): TagResult {
    var s := Score(combined, t);
    TagResult(t, s, ConfidenceForScore(s))
  }

  function TagsOf(rs: seq<TagResult>): (ts: seq<Tag>)
    ensures |ts| == |rs|
    ensures forall i :: 0 <= i < |rs| ==> ts[i] == rs[i].tag
  {
    seq(|rs|, i requires 0 <= i < |rs| => rs[i].tag)
  }

  predicate IncreasingTags(ts: seq<Tag>) {
    forall i, j :: 0 <= i < j < |ts| ==> TagIndex(ts[i]) < TagIndex(ts[j])
  }

  lemma TagsAreIncreasing()
    ensures IncreasingTags(Tags)
  {
  }

  /** The tags of `ts` scoring at least 3, in the order of `ts`. */
  function RetainTags(combined: string, ts: seq<Tag>): (r: seq<Tag>)
    ensures forall t :: t in r ==> t in ts && Score(combined, t) >= 3
    ensures forall t :: t in ts && Score(combined, t) >= 3 ==> t in r
  {
    if |ts| == 0 then []
    else
      var rest := RetainTags(combined, ts[1..]);
      assert forall t :: t in ts ==> t == ts[0] || t in ts[1..];
      if Score(combined, ts[0]) >= 3 then [ts[0]] + rest else rest
  }

  lemma IncreasingCons(t: Tag, rest: seq<Tag>)
    requires IncreasingTags(rest)
    requires forall u | u in rest :: TagIndex(t) < TagIndex(u)
    ensures IncreasingTags([t] + rest)
  {
    var r := [t] + rest;
    forall i, j | 0 <= i < j < |r| ensures TagIndex(r[i]) < TagIndex(r[j]) {
      assert r[j] == rest[j - 1];
      if i > 0 { assert r[i] == rest[i - 1]; }
    }
  }

  lemma IncreasingTail(ts: seq<Tag>)
    requires |ts| > 0 && IncreasingTags(ts)
    ensures IncreasingTags(ts[1..])
    ensures forall u | u in ts[1..] :: TagIndex(ts[0]) < TagIndex(u)
  {
    forall i, j | 0 <= i < j < |ts[1..]| ensures TagIndex(ts[1..][i]) < TagIndex(ts[1..][j]) {
      assert ts[1..][i] == ts[i + 1] && ts[1..][j] == ts[j + 1];
    }
    forall u | u in ts[1..] ensures TagIndex(ts[0]) < TagIndex(u) {
      var k :| 0 <= k < |ts[1..]| && ts[1..][k] == u;
      assert ts[k + 1] == u;
    }
  }

  /** Filtering keeps the enumeration order. */
  lemma {:induction false} RetainTagsIncreasing(combined: string, ts: seq<Tag>)
    requires IncreasingTags(ts)
    ensures IncreasingTags(RetainTags(combined, ts))
  {
    if |ts| > 0 {
      var rest := RetainTags(combined, ts[1..]);
      IncreasingTail(ts);
      RetainTagsIncreasing(combined, ts[1..]);
      if Score(combined, ts[0]) >= 3 {
        IncreasingCons(ts[0], rest);
      }
    }
  }

  function Entries(combined: string, ts: seq<Tag>): (r: seq<TagResult>)
    ensures TagsOf(r) == ts
    ensures forall i :: 0 <= i < |r| ==> r[i] == Entry(combined, r[i].tag)
  {
    seq(|ts|, i requires 0 <= i < |ts| => Entry(combined, ts[i]))
  }

  /** Python's `max` over the scores: the first position holding the largest value. */
  function ArgMaxFirst(xs: seq<int>): (k: nat)
    requires |xs| > 0
    ensures k < |xs|
    ensures forall i :: 0 <= i < |xs| ==> xs[i] <= xs[k]
    ensures forall i :: 0 <= i < k ==> xs[i] < xs[k]
  {
    if |xs| == 1 then 0
    else
      var m := ArgMaxFirst(xs[..|xs| - 1]);
      if xs[|xs| - 1] > xs[m] then |xs| - 1 else m
  }

  function ScoreList(combined: string): (xs: seq<int>)
    ensures |xs| == |Tags|
    ensures forall i :: 0 <= i < |Tags| ==> xs[i] == Score(combined, Tags[i])
  {
    seq(|Tags|, i requires 0 <= i < |Tags| => Score(combined, Tags[i]))
  }

  // ---- stable sort by descending score ----

  /** `a` comes before `b`: higher score, or equal score and earlier tag. */
  predicate Before(a: TagResult, b: TagResult) {
    a.score > b.score || (a.score == b.score && TagIndex(a.tag) < TagIndex(b.tag))
  }

  predicate Ordered(rs: seq<TagResult>) {
    forall i, j :: 0 <= i < j < |rs| ==> Before(rs[i], rs[j])
  }

  predicate NonIncreasing(rs: seq<TagResult>) {
    forall i, j :: 0 <= i < j < |rs| ==> rs[i].score >= rs[j].score
  }

  /** Inserts `e` after every element scoring at least as much, which keeps a
      descending sort stable. */
  function InsertByScore(e: TagResult, s: seq<TagResult>): (r: seq<TagResult>)
    ensures multiset(r) == multiset(s) + multiset{e}
    ensures |r| == |s| + 1
  {
    if |s| == 0 then [e]
    else if s[0].score >= e.score then
      assert s == [s[0]] + s[1..];
      [s[0]] + InsertByScore(e, s[1..])
    else [e] + s
  }

  lemma InsertElements(e: TagResult, s: seq<TagResult>)
    ensures forall x | x in InsertByScore(e, s) :: x == e || x in s
  {
    forall x | x in InsertByScore(e, s) ensures x == e || x in s {
      assert x in multiset(InsertByScore(e, s));
    }
  }

  lemma NonIncreasingSplit(s: seq<TagResult>)
    requires |s| > 0 && NonIncreasing(s)
    ensures NonIncreasing(s[1..])
    ensures forall y | y in s :: s[0].score >= y.score
  {
    forall y | y in s ensures s[0].score >= y.score {
      var k :| 0 <= k < |s| && s[k] == y;
    }
  }

  lemma NonIncreasingCons(x: TagResult, rest: seq<TagResult>)
    requires NonIncreasing(rest)
    requires forall y | y in rest :: x.score >= y.score
    ensures NonIncreasing([x] + rest)
  {
    var r := [x] + rest;
    forall i, j | 0 <= i < j < |r| ensures r[i].score >= r[j].score {
      assert r[j] == rest[j - 1];
      if i > 0 { assert r[i] == rest[i - 1]; }
    }
  }

  lemma {:induction false} InsertNonIncreasing(e: TagResult, s: seq<TagResult>)
    requires NonIncreasing(s)
    ensures NonIncreasing(InsertByScore(e, s))
  {
    if |s| > 0 {
      NonIncreasingSplit(s);
      if s[0].score >= e.score {
        InsertNonIncreasing(e, s[1..]);
        InsertElements(e, s[1..]);
        NonIncreasingCons(s[0], InsertByScore(e, s[1..]));
      } else {
        NonIncreasingCons(e, s);
      }
    }
  }

  lemma OrderedSplit(s: seq<TagResult>)
    requires |s| > 0 && Ordered(s)
    ensures Ordered(s[1..])
    ensures forall y | y in s[1..] :: Before(s[0], y)
  {
    forall y | y in s[1..] ensures Before(s[0], y) {
      var k :| 0 <= k < |s[1..]| && s[1..][k] == y;
      assert s[k + 1] == y;
    }
  }

  lemma OrderedCons(x: TagResult, rest: seq<TagResult>)
    requires Ordered(rest)
    requires forall y | y in rest :: Before(x, y)
    ensures Ordered([x] + rest)
  {
    var r := [x] + rest;
    forall i, j | 0 <= i < j < |r| ensures Before(r[i], r[j]) {
      assert r[j] == rest[j - 1];
      if i > 0 { assert r[i] == rest[i - 1]; }
    }
  }

  lemma {:induction false} InsertOrdered(e: TagResult, s: seq<TagResult>)
    requires Ordered(s)
    requires forall k :: 0 <= k < |s| ==> TagIndex(s[k].tag) < TagIndex(e.tag)
    ensures Ordered(InsertByScore(e, s))
  {
    if |s| > 0 {
      OrderedSplit(s);
      if s[0].score >= e.score {
        forall k | 0 <= k < |s[1..]| ensures TagIndex(s[1..][k].tag) < TagIndex(e.tag) {
          assert s[1..][k] == s[k + 1];
        }
        InsertOrdered(e, s[1..]);
        InsertElements(e, s[1..]);
        OrderedCons(s[0], InsertByScore(e, s[1..]));
      } else {
        forall y | y in s ensures Before(e, y) {
          if y != s[0] {
            assert y in s[1..] by { assert s == [s[0]] + s[1..]; }
          }
        }
        OrderedCons(e, s);
      }
    }
  }

  /** Python's stable `sort(key=score, reverse=True)`, as an insertion sort. */
  function SortByScore(s: seq<TagResult>): (r: seq<TagResult>)
    ensures multiset(r) == multiset(s)
    ensures |r| == |s|
    ensures NonIncreasing(r)
    ensures IncreasingTags(TagsOf(s)) ==> Ordered(r)
  {
    if |s| == 0 then []
    else
      var init := s[..|s| - 1];
      var last := s[|s| - 1];
      var r0 := SortByScore(init);
      assert s == init + [last];
      InsertNonIncreasing(last, r0);
      SortedPrefixOrdered(s, r0);
      InsertByScore(last, r0)
  }

  /** Everything sorted so far comes from an earlier tag than the next element. */
  lemma SortedPrefixOrdered(s: seq<TagResult>, r0: seq<TagResult>)
    requires |s| > 0
    requires multiset(r0) == multiset(s[..|s| - 1])
    requires IncreasingTags(TagsOf(s)) ==> Ordered(r0)
    ensures IncreasingTags(TagsOf(s)) ==> Ordered(InsertByScore(s[|s| - 1], r0))
  {
    if IncreasingTags(TagsOf(s)) {
      var last := s[|s| - 1];
      forall k | 0 <= k < |r0| ensures TagIndex(r0[k].tag) < TagIndex(last.tag) {
        assert r0[k] in multiset(s[..|s| - 1]);
        var m :| 0 <= m < |s| - 1 && s[..|s| - 1][m] == r0[k];
        assert TagsOf(s)[m] == r0[k].tag;
        assert TagsOf(s)[|s| - 1] == last.tag;
      }
      InsertOrdered(last, r0);
    }
  }

  // ---- classification ----

  datatype Classification = Classification(tags: seq<TagResult>, rawScores: map<Tag, int>)

  /** `t` is the first tag, in enumeration order, with the largest score. */
  predicate IsFirstMax(combined: string, t: Tag) {
    (forall u: Tag :: Score(combined, u) <= Score(combined, t))
    && (forall u: Tag :: TagIndex(u) < TagIndex(t) ==> Score(combined, u) < Score(combined, t))
  }

  /** The facts ClassifyPage promises, proved about its intermediate values. */
  lemma ClassifyFacts(combined: string, tagged: seq<TagResult>, chosen: seq<TagResult>, sorted: seq<TagResult>)
    requires tagged == Entries(combined, RetainTags(combined, Tags))
    requires chosen ==
      if |tagged| > 0 then tagged else [Entry(combined, Tags[ArgMaxFirst(ScoreList(combined))])]
    requires sorted == SortByScore(chosen)
    ensures |sorted| >= 1
    ensures forall i :: 0 <= i < |sorted| ==> sorted[i] == Entry(combined, sorted[i].tag)
    ensures Ordered(sorted)
    ensures (exists t: Tag :: Score(combined, t) >= 3) ==>
      forall t: Tag :: t in TagsOf(sorted) <==> Score(combined, t) >= 3
    ensures (forall t: Tag :: Score(combined, t) < 3) ==>
      |sorted| == 1 && IsFirstMax(combined, sorted[0].tag)
  {
    TagsAreIncreasing();
    var kept := RetainTags(combined, Tags);
    RetainTagsIncreasing(combined, Tags);
    forall t: Tag | Score(combined, t) >= 3 ensures t in kept {
      assert Tags[TagIndex(t)] == t;
    }
    assert IncreasingTags(TagsOf(chosen));
    forall i | 0 <= i < |sorted| ensures sorted[i] == Entry(combined, sorted[i].tag) {
      assert sorted[i] in multiset(chosen);
    }
    forall t: Tag ensures t in TagsOf(sorted) <==> t in TagsOf(chosen) {
      MultisetSameTags(chosen, sorted, t);
    }
    if |tagged| == 0 {
      var xs := ScoreList(combined);
      var k := ArgMaxFirst(xs);
      forall u: Tag ensures Score(combined, u) <= Score(combined, Tags[k]) {
        assert xs[TagIndex(u)] == Score(combined, u);
      }
      forall u: Tag | TagIndex(u) < TagIndex(Tags[k]) ensures Score(combined, u) < Score(combined, Tags[k]) {
        assert xs[TagIndex(u)] == Score(combined, u);
      }
    }
  }

  lemma MultisetSameTags(a: seq<TagResult>, b: seq<TagResult>, t: Tag)
    requires multiset(a) == multiset(b)
    ensures t in TagsOf(a) <==> t in TagsOf(b)
  {
    if t in TagsOf(a) {
      var i :| 0 <= i < |a| && TagsOf(a)[i] == t;
      assert a[i] in multiset(b);
      var j :| 0 <= j < |b| && b[j] == a[i];
      assert TagsOf(b)[j] == t;
    }
    if t in TagsOf(b) {
      var i :| 0 <= i < |b| && TagsOf(b)[i] == t;
      assert b[i] in multiset(a);
      var j :| 0 <= j < |a| && a[j] == b[i];
      assert TagsOf(a)[j] == t;
    }
  }

  function ClassifyPage(text: Option<string>): (r: Classification)
    ensures |r.tags| >= 1
    ensures forall t: Tag :: t in r.rawScores && r.rawScores[t] == Score(Combined(text), t)
    ensures forall i :: 0 <= i < |r.tags| ==> r.tags[i] == Entry(Combined(text), r.tags[i].tag)
    ensures Ordered(r.tags)
    ensures (exists t: Tag :: Score(Combined(text), t) >= 3) ==>
      forall t: Tag :: t in TagsOf(r.tags) <==> Score(Combined(text), t) >= 3
    ensures (forall t: Tag :: Score(Combined(text), t) < 3) ==>
      |r.tags| == 1 && IsFirstMax(Combined(text), r.tags[0].tag)
  {
    var combined := Combined(text);
    var scores := map t | t in Tags :: Score(combined, t);
    assert forall t: Tag :: t in scores by {
      forall t: Tag ensures t in scores { assert Tags[TagIndex(t)] == t; }
    }
    var tagged := Entries(combined, RetainTags(combined, Tags));
    var chosen :=
      if |tagged| > 0 then tagged
      else [Entry(combined, Tags[ArgMaxFirst(ScoreList(combined))])];
    var sorted := SortByScore(chosen);
    ClassifyFacts(combined, tagged, chosen, sorted);
    Classification(sorted, scores)
  }

  // ---- scenarios ----

  lemma NothingScoresOnEmptyText(t: Tag)
    ensures Score("", t) == 0
  {
    var kws := Keywords(t);
    forall k | 0 <= k < |kws| ensures ScoreForKeyword("", kws[k]) == 0 {
      assert |kws[k]| > 0 && |BoundaryPattern(kws[k])| > 0;
    }
    KeywordScoreZero("", kws);
  }

  /** When every tag scores 0 the result is Floor Plan alone, with tier Low. */
  lemma AllZeroFallsBackToFloorPlan(text: Option<string>)
    requires forall t: Tag :: Score(Combined(text), t) == 0
    ensures ClassifyPage(text).tags == [TagResult(FloorPlan, 0, Low)]
  {
    var r := ClassifyPage(text);
    assert IsFirstMax(Combined(text), r.tags[0].tag);
    assert !(Score(Combined(text), FloorPlan) < Score(Combined(text), r.tags[0].tag));
    assert TagIndex(r.tags[0].tag) == 0;
  }

  /** Missing or empty text falls back to Floor Plan with score 0 and tier Low. */
  lemma EmptyTextClassification(text: Option<string>)
    requires text == None || text == Some("")
    ensures ClassifyPage(text).tags == [TagResult(FloorPlan, 0, Low)]
  {
    assert Combined(text) == "";
    forall t: Tag ensures Score(Combined(text), t) == 0 { NothingScoresOnEmptyText(t); }
    AllZeroFallsBackToFloorPlan(text);
  }

  /** A sorted result never repeats a tag. */
  lemma OrderedEntriesDistinct(combined: string, rs: seq<TagResult>)
    requires forall i :: 0 <= i < |rs| ==> rs[i] == Entry(combined, rs[i].tag)
    requires Ordered(rs)
    ensures forall i, j :: 0 <= i < j < |rs| ==> rs[i].tag != rs[j].tag
  {
  }

  /** The tag at position `i`, or `t` past the end. */
  function TagAtOr(rs: seq<TagResult>, i: nat, t: Tag): Tag {
    if i < |rs| then rs[i].tag else t
  }

  lemma AtMostOneOfATag(rs: seq<TagResult>, t: Tag)
    requires forall i, j :: 0 <= i < j < |rs| ==> rs[i].tag != rs[j].tag
    requires forall i :: 0 <= i < |rs| ==> rs[i].tag == t
    ensures |rs| <= 1
  {
    assert TagAtOr(rs, 0, t) == t && TagAtOr(rs, 1, t) == t;
  }

  /** A result list with the shape ClassifyPage promises, in which only `t`
      reaches 3, is the single entry for `t`. */
  lemma SoleTagResult(c: string, rs: seq<TagResult>, t: Tag)
    requires forall i :: 0 <= i < |rs| ==> rs[i] == Entry(c, rs[i].tag)
    requires Ordered(rs)
    requires forall u: Tag :: u in TagsOf(rs) <==> Score(c, u) >= 3
    requires Score(c, t) >= 3
    requires forall u: Tag :: u != t ==> Score(c, u) < 3
    ensures rs == [Entry(c, t)]
  {
    forall i | 0 <= i < |rs| ensures rs[i].tag == t {
      assert TagsOf(rs)[i] == rs[i].tag;
    }
    OrderedEntriesDistinct(c, rs);
    AtMostOneOfATag(rs, t);
    assert t in TagsOf(rs);
  }

  /** When exactly one tag reaches 3, it is the whole result. */
  lemma SoleQualifyingTag(text: Option<string>, t: Tag)
    requires Score(Combined(text), t) >= 3
    requires forall u: Tag :: u != t ==> Score(Combined(text), u) < 3
    ensures ClassifyPage(text).tags == [Entry(Combined(text), t)]
  {
    var r := ClassifyPage(text);
    SoleTagResult(Combined(text), r.tags, t);
  }

  const DoorSample: string := "DOOR SCHEDULE\nWIDTH HEIGHT TYPE MARK"

  lemma SampleLacksChar(c: char)
    requires c in ".BFNVb"
    ensures forall i :: 0 <= i < |DoorSample| ==> DoorSample[i] != c
  {
  }

  /** Which characters follow an O, A, E or R in the sample. */
  lemma SampleSuccessors()
    ensures forall i :: 0 <= i < |DoorSample| - 1 ==>
      (DoorSample[i] == 'O' ==> DoorSample[i + 1] in "OR")
      && (DoorSample[i] == 'A' ==> DoorSample[i + 1] == 'R')
      && (DoorSample[i] == 'E' ==> DoorSample[i + 1] in "\n DI")
      && (DoorSample[i] == 'R' ==> DoorSample[i + 1] in " K")
  {
    SuccessorsOfO();
    SuccessorsOfA();
    SuccessorsOfE();
    SuccessorsOfR();
  }

  lemma SuccessorsOfO()
    ensures forall i :: 0 <= i < |DoorSample| - 1 ==> DoorSample[i] == 'O' ==> DoorSample[i + 1] in "OR"
  {
  }

  lemma SuccessorsOfA()
    ensures forall i :: 0 <= i < |DoorSample| - 1 ==> DoorSample[i] == 'A' ==> DoorSample[i + 1] == 'R'
  {
  }

  lemma SuccessorsOfE()
    ensures forall i :: 0 <= i < |DoorSample| - 1 ==> DoorSample[i] == 'E' ==> DoorSample[i + 1] in "\n DI"
  {
  }

  lemma SuccessorsOfR()
    ensures forall i :: 0 <= i < |DoorSample| - 1 ==> DoorSample[i] == 'R' ==> DoorSample[i + 1] in " K"
  {
  }

  /** A pattern occurs wherever it is placed. */
  lemma InMiddle(pre: string, p: string, post: string)
    ensures IsSubstring(p, pre + p + post)
  {
    assert (pre + p + post)[|pre|..|pre| + |p|] == p;
    assert MatchesAt(p, pre + p + post, |pre|);
  }

  lemma SampleHasDoorSchedule()
    ensures IsSubstring("DOOR SCHEDULE", DoorSample)
  {
    assert DoorSample == "" + "DOOR SCHEDULE" + "\nWIDTH HEIGHT TYPE MARK";
    InMiddle("", "DOOR SCHEDULE", "\nWIDTH HEIGHT TYPE MARK");
  }

  lemma SampleHasDoor()
    ensures IsSubstring("DOOR", DoorSample)
  {
    assert DoorSample == "" + "DOOR" + " SCHEDULE\nWIDTH HEIGHT TYPE MARK";
    InMiddle("", "DOOR", " SCHEDULE\nWIDTH HEIGHT TYPE MARK");
  }

  lemma SampleHasWidth()
    ensures IsSubstring("WIDTH", DoorSample)
  {
    assert DoorSample == "DOOR SCHEDULE\n" + "WIDTH" + " HEIGHT TYPE MARK";
    InMiddle("DOOR SCHEDULE\n", "WIDTH", " HEIGHT TYPE MARK");
  }

  lemma SampleHasHeight()
    ensures IsSubstring("HEIGHT", DoorSample)
  {
    assert DoorSample == "DOOR SCHEDULE\nWIDTH " + "HEIGHT" + " TYPE MARK";
    InMiddle("DOOR SCHEDULE\nWIDTH ", "HEIGHT", " TYPE MARK");
  }

  lemma SampleHasType()
    ensures IsSubstring("TYPE", DoorSample)
  {
    assert DoorSample == "DOOR SCHEDULE\nWIDTH HEIGHT " + "TYPE" + " MARK";
    InMiddle("DOOR SCHEDULE\nWIDTH HEIGHT ", "TYPE", " MARK");
  }

  lemma SampleHasMark()
    ensures IsSubstring("MARK", DoorSample)
  {
    assert DoorSample == "DOOR SCHEDULE\nWIDTH HEIGHT TYPE " + "MARK" + "";
    InMiddle("DOOR SCHEDULE\nWIDTH HEIGHT TYPE ", "MARK", "");
  }

  lemma SampleWords()
    ensures IsSubstring("DOOR SCHEDULE", DoorSample) && IsSubstring("DOOR", DoorSample)
    ensures IsSubstring("WIDTH", DoorSample) && IsSubstring("HEIGHT", DoorSample)
    ensures IsSubstring("TYPE", DoorSample) && IsSubstring("MARK", DoorSample)
  {
    SampleHasDoorSchedule();
    SampleHasDoor();
    SampleHasWidth();
    SampleHasHeight();
    SampleHasType();
    SampleHasMark();
  }

  lemma SampleMissesF()
    ensures !IsSubstring("FLOOR PLAN", DoorSample)
    ensures !IsSubstring("FRAME", DoorSample)
    ensures !IsSubstring("REFLECTED CEILING", DoorSample)
    ensures !IsSubstring("DIFFUSER", DoorSample)
    ensures !IsSubstring("FHA", DoorSample)
  {
    SampleLacksChar('F');
    AbsentCharNoSubstring("FLOOR PLAN", DoorSample, 0, 'F');
    AbsentCharNoSubstring("FRAME", DoorSample, 0, 'F');
    AbsentCharNoSubstring("REFLECTED CEILING", DoorSample, 2, 'F');
    AbsentCharNoSubstring("DIFFUSER", DoorSample, 2, 'F');
    AbsentCharNoSubstring("FHA", DoorSample, 0, 'F');
  }

  lemma SampleMissesN()
    ensures !IsSubstring("UNIT PLAN", DoorSample)
    ensures !IsSubstring("PLAN", DoorSample)
    ensures !IsSubstring("DIMENSION", DoorSample)
    ensures !IsSubstring("HINGE", DoorSample)
    ensures !IsSubstring("INTERIOR ELEVATION", DoorSample)
    ensures !IsSubstring("CEILING PLAN", DoorSample)
    ensures !IsSubstring("LIGHTING", DoorSample)
    ensures !IsSubstring("SPRINKLER", DoorSample)
    ensures !IsSubstring("GENERAL NOTES", DoorSample)
    ensures !IsSubstring("ANSI", DoorSample)
    ensures !IsSubstring("SECTION", DoorSample)
    ensures !IsSubstring("ENLARGED", DoorSample)
  {
    SampleLacksChar('N');
    AbsentCharNoSubstring("UNIT PLAN", DoorSample, 1, 'N');
    AbsentCharNoSubstring("PLAN", DoorSample, 3, 'N');
    AbsentCharNoSubstring("DIMENSION", DoorSample, 4, 'N');
    AbsentCharNoSubstring("HINGE", DoorSample, 2, 'N');
    AbsentCharNoSubstring("INTERIOR ELEVATION", DoorSample, 1, 'N');
    AbsentCharNoSubstring("CEILING PLAN", DoorSample, 5, 'N');
    AbsentCharNoSubstring("LIGHTING", DoorSample, 6, 'N');
    AbsentCharNoSubstring("SPRINKLER", DoorSample, 4, 'N');
    AbsentCharNoSubstring("GENERAL NOTES", DoorSample, 2, 'N');
    AbsentCharNoSubstring("ANSI", DoorSample, 1, 'N');
    AbsentCharNoSubstring("SECTION", DoorSample, 6, 'N');
    AbsentCharNoSubstring("ENLARGED", DoorSample, 1, 'N');
  }

  lemma SampleMissesVBDot()
    ensures !IsSubstring("ELEVATION", DoorSample)
    ensures !IsSubstring("TILE ELEV", DoorSample)
    ensures !IsSubstring("CABINET ELEV", DoorSample)
    ensures !IsSubstring("ACCESSIBILITY", DoorSample)
    ensures !IsSubstring("TYP.", DoorSample)
  {
    SampleLacksChar('V');
    SampleLacksChar('B');
    SampleLacksChar('.');
    AbsentCharNoSubstring("ELEVATION", DoorSample, 3, 'V');
    AbsentCharNoSubstring("TILE ELEV", DoorSample, 8, 'V');
    AbsentCharNoSubstring("CABINET ELEV", DoorSample, 2, 'B');
    AbsentCharNoSubstring("ACCESSIBILITY", DoorSample, 7, 'B');
    AbsentCharNoSubstring("TYP.", DoorSample, 3, '.');
  }

  lemma SampleMissesLetterPatterns()
    ensures forall c | c in ["A", "B", "C", "D"] :: !IsSubstring(BoundaryPattern(c), DoorSample)
  {
    SampleLacksChar('b');
    forall c | c in ["A", "B", "C", "D"] ensures !IsSubstring(BoundaryPattern(c), DoorSample) {
      AbsentCharNoSubstring(BoundaryPattern(c), DoorSample, 1, 'b');
    }
  }

  /** Keywords ruled out by a pair of adjacent letters that never occurs. */
  lemma MissesByPair(s: string)
    requires forall i :: 0 <= i < |s| - 1 ==>
      (s[i] == 'O' ==> s[i + 1] in "OR")
      && (s[i] == 'A' ==> s[i + 1] == 'R')
      && (s[i] == 'E' ==> s[i + 1] in "\n DI")
      && (s[i] == 'R' ==> s[i + 1] in " K")
    ensures !IsSubstring("ROOM", s) && !IsSubstring("DWG SCALE", s) && !IsSubstring("RCP", s)
    ensures !IsSubstring("SMOKE", s) && !IsSubstring("HARDWARE", s) && !IsSubstring("SET", s)
    ensures !IsSubstring("ADA", s) && !IsSubstring("CODE", s) && !IsSubstring("SPEC", s)
    ensures !IsSubstring("DETAIL", s) && !IsSubstring("CALLOUT", s)
  {
    AbsentPairNoSubstring("ROOM", s, 2);
    AbsentPairNoSubstring("DWG SCALE", s, 6);
    AbsentPairNoSubstring("RCP", s, 0);
    AbsentPairNoSubstring("SMOKE", s, 2);
    AbsentPairNoSubstring("HARDWARE", s, 2);
    AbsentPairNoSubstring("SET", s, 1);
    AbsentPairNoSubstring("ADA", s, 0);
    AbsentPairNoSubstring("CODE", s, 1);
    AbsentPairNoSubstring("SPEC", s, 2);
    AbsentPairNoSubstring("DETAIL", s, 1);
    AbsentPairNoSubstring("CALLOUT", s, 1);
  }

  lemma SampleMissesByPair()
    ensures !IsSubstring("ROOM", DoorSample) && !IsSubstring("DWG SCALE", DoorSample)
    ensures !IsSubstring("RCP", DoorSample) && !IsSubstring("SMOKE", DoorSample)
    ensures !IsSubstring("HARDWARE", DoorSample) && !IsSubstring("SET", DoorSample)
    ensures !IsSubstring("ADA", DoorSample) && !IsSubstring("CODE", DoorSample)
    ensures !IsSubstring("SPEC", DoorSample) && !IsSubstring("DETAIL", DoorSample)
    ensures !IsSubstring("CALLOUT", DoorSample)
  {
    SampleSuccessors();
    MissesByPair(DoorSample);
  }

  /** What a keyword is searched for in the text. */
  function SearchPattern(keyword: string): string {
    if ' ' !in keyword && |keyword| == 1 then BoundaryPattern(keyword) else keyword
  }

  lemma ScoreZeroIffAbsent(text: string, keyword: string)
    ensures ScoreForKeyword(text, keyword) == 0 <==> !IsSubstring(SearchPattern(keyword), text)
  {
  }

  /** What the keywords of every tag other than "Door Schedule" search for. */
  const OtherPatterns: seq<string> := [
    "FLOOR PLAN", "UNIT PLAN", "PLAN", "DIMENSION", "ROOM", "DWG SCALE",
    "INTERIOR ELEVATION", "ELEVATION", "CABINET ELEV", "TILE ELEV",
    BoundaryPattern("A"), BoundaryPattern("B"), BoundaryPattern("C"), BoundaryPattern("D"),
    "RCP", "REFLECTED CEILING", "CEILING PLAN", "LIGHTING", "SMOKE", "SPRINKLER", "DIFFUSER",
    "GENERAL NOTES", "ACCESSIBILITY", "ADA", "ANSI", "FHA", "CODE", "SPEC",
    "DETAIL", "SECTION", "CALLOUT", "TYP.", "ENLARGED"]

  lemma SampleMissesOtherPatterns()
    ensures forall w | w in OtherPatterns :: !IsSubstring(w, DoorSample)
  {
    SampleMissesF();
    SampleMissesN();
    SampleMissesVBDot();
    SampleMissesLetterPatterns();
    SampleMissesByPair();
  }

  /** The score of a nine-keyword list, keyword by keyword. */
  lemma KeywordScoreOfNine(text: string, kws: seq<string>)
    requires |kws| == 9
    ensures KeywordScore(text, kws) ==
      ScoreForKeyword(text, kws[0]) + ScoreForKeyword(text, kws[1]) + ScoreForKeyword(text, kws[2])
      + ScoreForKeyword(text, kws[3]) + ScoreForKeyword(text, kws[4]) + ScoreForKeyword(text, kws[5])
      + ScoreForKeyword(text, kws[6]) + ScoreForKeyword(text, kws[7]) + ScoreForKeyword(text, kws[8])
  {
    KeywordScoreAppend(text, kws[..4], kws[4..]);
    assert kws[..4] + kws[4..] == kws;
    assert kws[..4] == [kws[0], kws[1], kws[2], kws[3]];
    assert kws[4..] == [kws[4], kws[5], kws[6], kws[7], kws[8]];
    KeywordScoreCons(text, kws[0], [kws[1], kws[2], kws[3]]);
    KeywordScoreCons(text, kws[1], [kws[2], kws[3]]);
    KeywordScoreCons(text, kws[2], [kws[3]]);
    KeywordScoreCons(text, kws[3], []);
    KeywordScoreCons(text, kws[4], [kws[5], kws[6], kws[7], kws[8]]);
    KeywordScoreCons(text, kws[5], [kws[6], kws[7], kws[8]]);
    KeywordScoreCons(text, kws[6], [kws[7], kws[8]]);
    KeywordScoreCons(text, kws[7], [kws[8]]);
    KeywordScoreCons(text, kws[8], []);
  }

  lemma DoorKeywordsScore(text: string)
    requires IsSubstring("DOOR SCHEDULE", text) && IsSubstring("DOOR", text) && IsSubstring("MARK", text)
    requires IsSubstring("WIDTH", text) && IsSubstring("HEIGHT", text)
    requires !IsSubstring("FRAME", text) && !IsSubstring("HARDWARE", text)
    requires !IsSubstring("HINGE", text) && !IsSubstring("SET", text)
    ensures KeywordScore(text, Keywords(DoorSchedule)) == 7
  {
    KeywordScoreOfNine(text, Keywords(DoorSchedule));
  }

  lemma OtherKeywordsScore(text: string)
    requires forall w | w in OtherPatterns :: !IsSubstring(w, text)
    ensures forall t: Tag :: t != DoorSchedule ==> KeywordScore(text, Keywords(t)) == 0
  {
    forall t: Tag | t != DoorSchedule ensures KeywordScore(text, Keywords(t)) == 0 {
      var kws := Keywords(t);
      forall k | 0 <= k < |kws| ensures ScoreForKeyword(text, kws[k]) == 0 {
        ScoreZeroIffAbsent(text, kws[k]);
        assert SearchPattern(kws[k]) in OtherPatterns;
      }
      KeywordScoreZero(text, kws);
    }
  }

  lemma DoorSampleBonus()
    ensures TableBonus(DoorSample) == 5
  {
    var s := DoorSample;
    SampleWords();
    assert HeaderTokens[1..][1..][1..][1..] == [];
    assert HeaderHits(s) == 4;
    assert !IsSpace(s[0]);
  }

  lemma DoorSampleScores()
    ensures Score(DoorSample, DoorSchedule) == 12
    ensures forall t: Tag :: t != DoorSchedule ==> Score(DoorSample, t) == 0
  {
    SampleWords();
    SampleMissesF();
    SampleMissesN();
    SampleMissesByPair();
    SampleMissesOtherPatterns();
    var s := DoorSample;
    DoorKeywordsScore(s);
    OtherKeywordsScore(s);
    DoorSampleBonus();
  }

  /** A schedule heading above a row of column headers: only "Door Schedule"
      is kept, with 3+1+1+1+1 keyword points and the 5-point table bonus. */
  lemma DoorScheduleExample()
    ensures ClassifyPage(Some(DoorSample)).tags == [TagResult(DoorSchedule, 12, High)]
  {
    UpperFixesNoLower(DoorSample);
    assert Combined(Some(DoorSample)) == DoorSample;
    DoorSampleScores();
    SoleQualifyingTag(Some(DoorSample), DoorSchedule);
  }
}

=== FILE: quality_analysis.dfy ===
/**
 Review quality metrics: counts of issues by attribute, three guarded
 ratios, and the warnings and suggestions derived from them. Ratios are
 exact reals; warnings and suggestions are their kinds, not their text.
 */
module QualityAnalysis {
  import opened Text
  import opened Schemas
  import PageClassifier

  /** The quality metrics of one review. The source builds a
      `ReviewQualityMetrics` with these fields (src/quality_analysis.py,
      lines 51-60); src/schemas.py does not define that class. */
  datatype Metrics = Metrics(
    totalIssues: nat,
    highConfidenceIssues: nat,
    issuesWithMeasurements: nat,
    issuesWithReferences: nat,
    pagesReviewed: nat,
    avgIssuesPerPage: real,
    confidenceScore: real,
    completenessScore: real)

  // ---- per-issue attributes ----

  predicate HasDigit(s: string) {
    exists i :: 0 <= i < |s| && IsDigit(s[i])
  }

  /** A measurement is given, or the finding mentions a number. */
  predicate HasMeasurement(issue: Issue) {
    issue.measurement != [] || HasDigit(issue.finding)
  }

  /** A reference is present and non-empty. */
  predicate HasReference(issue: Issue) {
    issue.reference.Some? && issue.reference.value != []
  }

  predicate IsHighConfidence(issue: Issue) {
    issue.confidence == High
  }

  // ---- counting ----

  /** The number of issues of the list that satisfy `p`. */
  function CountIssues(issues: seq<Issue>, p: Issue -> bool): (n: nat)
    ensures n <= |issues|
    ensures (forall i :: 0 <= i < |issues| ==> p(issues[i])) ==> n == |issues|
    ensures (forall i :: 0 <= i < |issues| ==> !p(issues[i])) ==> n == 0
  {
    if |issues| == 0 then 0
    else (if p(issues[0]) then 1 else 0) + CountIssues(issues[1..], p)
  }

  /** The number of issues over all pages. */
  function TotalIssues(pages: seq<PageReview>): nat {
    if |pages| == 0 then 0 else |pages[0].issues| + TotalIssues(pages[1..])
  }

  /** The number of issues over all pages that satisfy `p`. */
  function CountAll(pages: seq<PageReview>, p: Issue -> bool): (n: nat)
    ensures n <= TotalIssues(pages)
  {
    if |pages| == 0 then 0 else CountIssues(pages[0].issues, p) + CountAll(pages[1..], p)
  }

  lemma {:induction false} TotalIssuesAppend(a: seq<PageReview>, b: seq<PageReview>)
    ensures TotalIssues(a + b) == TotalIssues(a) + TotalIssues(b)
  {
    if |a| == 0 {
      assert a + b == b;
    } else {
      assert (a + b)[0] == a[0];
      assert (a + b)[1..] == a[1..] + b;
      TotalIssuesAppend(a[1..], b);
    }
  }

  lemma {:induction false} TotalIssuesZero(pages: seq<PageReview>)
    ensures TotalIssues(pages) == 0 <==> forall k :: 0 <= k < |pages| ==> pages[k].issues == []
  {
    if |pages| > 0 {
      TotalIssuesZero(pages[1..]);
      assert forall k :: 1 <= k < |pages| ==> pages[k] == pages[1..][k - 1];
    }
  }

  // ---- expectations per page ----

  /** Issues a page of the given label is expected to have; 3 for any other label. */
  function ExpectedForLabel(pageLabel: string): (n: nat)
    ensures 2 <= n <= 5
    ensures pageLabel == "Floor Plan" ==> n == 5
    ensures pageLabel == "Reflected Ceiling Plan" ==> n == 2
    ensures pageLabel != "Floor Plan" && pageLabel != "Reflected Ceiling Plan" ==> n == 3
  {
    if pageLabel == "Floor Plan" then 5
    else if pageLabel == "Interior Elevation" then 3
    else if pageLabel == "Door Schedule" then 3
    else if pageLabel == "Reflected Ceiling Plan" then 2
    else if pageLabel == "Other" then 3
    else 3
  }

  /** Of the classifier's labels only "Floor Plan" is a key of the table:
      "Interior Elevations" and "RCP / Ceiling" differ from the keys
      "Interior Elevation" and "Reflected Ceiling Plan", so every label but
      "Floor Plan" gets 3. */
  lemma ExpectedForClassifierLabels(t: PageClassifier.Tag)
    ensures ExpectedForLabel(PageClassifier.TagName(t)) == if t == PageClassifier.FloorPlan then 5 else 3
  {
  }

  function ExpectedTotal(pages: seq<PageReview>): (n: nat)
    ensures 2 * |pages| <= n <= 5 * |pages|
  {
    if |pages| == 0 then 0 else ExpectedForLabel(pages[0].pageLabel) + ExpectedTotal(pages[1..])
  }

  // ---- ratios ----

  /** `part / whole`, or 0 when `whole` is 0. */
  function GuardedRatio(part: nat, whole: nat): (q: real)
    ensures whole == 0 || part == 0 ==> q == 0.0
    ensures whole > 0 ==> q == part as real / whole as real
    ensures 0.0 <= q
    ensures part <= whole ==> q <= 1.0
    ensures 0 < part == whole ==> q == 1.0
  {
    if whole > 0 then part as real / whole as real else 0.0
  }

  /** `part / whole * 100`, or 0 when `whole` is 0; in [0, 100] for a part of the whole. */
  function Percentage(part: nat, whole: nat): (r: real)
    ensures whole == 0 || part == 0 ==> r == 0.0
    ensures whole > 0 ==> r == part as real / whole as real * 100.0
    ensures 0.0 <= r
    ensures part <= whole ==> r <= 100.0
    ensures 0 < part == whole ==> r == 100.0
  {
    GuardedRatio(part, whole) * 100.0
  }

  /** `calculate_metrics`. */
  function CalculateMetrics(result: ReviewResult): (m: Metrics)
    ensures m.totalIssues == TotalIssues(result.pages)
    ensures m.pagesReviewed == |result.pages|
    ensures m.highConfidenceIssues == CountAll(result.pages, IsHighConfidence) <= m.totalIssues
    ensures m.issuesWithMeasurements == CountAll(result.pages, HasMeasurement) <= m.totalIssues
    ensures m.issuesWithReferences == CountAll(result.pages, HasReference) <= m.totalIssues
    ensures m.pagesReviewed == 0 ==> m.avgIssuesPerPage == 0.0
    ensures m.pagesReviewed > 0 ==> m.avgIssuesPerPage == m.totalIssues as real / m.pagesReviewed as real
    ensures m.totalIssues == 0 ==> m.confidenceScore == 0.0
    ensures m.totalIssues > 0 ==>
      m.confidenceScore == m.highConfidenceIssues as real / m.totalIssues as real * 100.0
    ensures 0.0 <= m.confidenceScore <= 100.0
    ensures m.completenessScore == MinR(100.0, Percentage(m.totalIssues, ExpectedTotal(result.pages)))
    ensures 0.0 <= m.completenessScore <= 100.0
    ensures m.pagesReviewed == 0 ==> m.completenessScore == 0.0
    ensures m.totalIssues == 0 ==> m.completenessScore == 0.0 && m.avgIssuesPerPage == 0.0
  {
    var pages := result.pages;
    var total := TotalIssues(pages);
    var expected := ExpectedTotal(pages);
    Metrics(
      total,
      CountAll(pages, IsHighConfidence),
      CountAll(pages, HasMeasurement),
      CountAll(pages, HasReference),
      |pages|,
      GuardedRatio(total, |pages|),
      Percentage(CountAll(pages, IsHighConfidence), total),
      MinR(100.0, Percentage(total, expected)))
  }

  // ---- warnings ----

  datatype Warning = LowIssueCount | LowConfidence | MissingReferences | Incomplete

  /** The order warnings are reported in. */
  function WarningRank(w: Warning): nat {
    match w
    case LowIssueCount => 0
    case LowConfidence => 1
    case MissingReferences => 2
    case Incomplete => 3
  }

  /** Fewer than half of the issues cite a reference (shared with the
      add-references suggestion). */
  predicate FewReferences(m: Metrics) {
    m.issuesWithReferences as real < m.totalIssues as real * 0.5
  }

  /** The threshold that raises each warning. */
  predicate Raised(m: Metrics, w: Warning) {
    match w
    case LowIssueCount => m.avgIssuesPerPage < 3.0
    case LowConfidence => m.confidenceScore < 30.0
    case MissingReferences => FewReferences(m)
    case Incomplete => m.completenessScore < 60.0
  }

  /** `get_quality_warnings`: the raised warnings, each once, in the fixed order. */
  function QualityWarnings(m: Metrics): (ws: seq<Warning>)
    ensures |ws| <= 4
    ensures forall w: Warning :: w in ws <==> Raised(m, w)
    ensures forall i, j :: 0 <= i < j < |ws| ==> WarningRank(ws[i]) < WarningRank(ws[j])
  {
    (if m.avgIssuesPerPage < 3.0 then [LowIssueCount] else [])
    + (if m.confidenceScore < 30.0 then [LowConfidence] else [])
    + (if FewReferences(m) then [MissingReferences] else [])
    + (if m.completenessScore < 60.0 then [Incomplete] else [])
  }

  // ---- suggestions ----

  datatype Suggestion = RequestMeasurements | HigherQualityImages | AddReferences | FollowUpReview

  function SuggestionRank(s: Suggestion): nat {
    match s
    case RequestMeasurements => 0
    case HigherQualityImages => 1
    case AddReferences => 2
    case FollowUpReview => 3
  }

  /** The threshold that brings each suggestion; the follow-up review is always suggested. */
  predicate Suggested(m: Metrics, s: Suggestion) {
    match s
    case RequestMeasurements => m.issuesWithMeasurements as real < m.totalIssues as real * 0.3
    case HigherQualityImages => m.confidenceScore < 50.0
    case AddReferences => FewReferences(m)
    case FollowUpReview => true
  }

  /** `suggest_improvements`: the suggestions that apply, in the fixed order,
      always ending with the follow-up review. */
  function SuggestImprovements(m: Metrics): (ss: seq<Suggestion>)
    ensures 1 <= |ss| <= 4
    ensures ss[|ss| - 1] == FollowUpReview
    ensures forall s: Suggestion :: s in ss <==> Suggested(m, s)
    ensures forall i, j :: 0 <= i < j < |ss| ==> SuggestionRank(ss[i]) < SuggestionRank(ss[j])
  {
    (if m.issuesWithMeasurements as real < m.totalIssues as real * 0.3 then [RequestMeasurements] else [])
    + (if m.confidenceScore < 50.0 then [HigherQualityImages] else [])
    + (if FewReferences(m) then [AddReferences] else [])
    + [FollowUpReview]
  }

  // ---- properties ----

  /** The add-references suggestion comes exactly with the missing-references warning. */
  lemma ReferencesAdviceMatchesWarning(m: Metrics)
    ensures AddReferences in SuggestImprovements(m) <==> MissingReferences in QualityWarnings(m)
  {
  }

  /** A review without issues gets exactly three warnings: every ratio is 0,
      and "0 references out of 0" is not fewer than half. */
  lemma NoIssuesThreeWarnings(result: ReviewResult)
    requires forall k :: 0 <= k < |result.pages| ==> result.pages[k].issues == []
    ensures QualityWarnings(CalculateMetrics(result)) == [LowIssueCount, LowConfidence, Incomplete]
  {
    TotalIssuesZero(result.pages);
  }

  /** A review without issues is advised only to use better images and to
      follow up: "0 below 0" holds for neither the measurement nor the
      reference threshold. */
  lemma NoIssuesSuggestions(result: ReviewResult)
    requires forall k :: 0 <= k < |result.pages| ==> result.pages[k].issues == []
    ensures SuggestImprovements(CalculateMetrics(result)) == [HigherQualityImages, FollowUpReview]
  {
    TotalIssuesZero(result.pages);
  }

  lemma {:induction false} CountIssuesAppend(xs: seq<Issue>, ys: seq<Issue>, p: Issue -> bool)
    ensures CountIssues(xs + ys, p) == CountIssues(xs, p) + CountIssues(ys, p)
  {
    if |xs| == 0 {
      assert xs + ys == ys;
    } else {
      assert (xs + ys)[0] == xs[0];
      assert (xs + ys)[1..] == xs[1..] + ys;
      CountIssuesAppend(xs[1..], ys, p);
    }
  }

  /** One issue counts once exactly when it has the attribute. */
  lemma CountIssuesSingle(x: Issue, p: Issue -> bool)
    ensures CountIssues([x], p) == if p(x) then 1 else 0
  {
    assert [x][1..] == [];
  }

  /** An issue whose finding holds a digit counts as one with a measurement,
      even without a measurement field. */
  lemma DigitInFindingIsMeasurement(x: Issue, i: nat)
    requires i < |x.finding| && IsDigit(x.finding[i])
    ensures HasMeasurement(x)
  {
  }

  lemma {:induction false} CountAllEveryIssue(pages: seq<PageReview>, p: Issue -> bool)
    requires forall k, i :: 0 <= k < |pages| && 0 <= i < |pages[k].issues| ==> p(pages[k].issues[i])
    ensures CountAll(pages, p) == TotalIssues(pages)
  {
    if |pages| > 0 {
      assert forall k :: 1 <= k < |pages| ==> pages[k] == pages[1..][k - 1];
      CountAllEveryIssue(pages[1..], p);
    }
  }

  /** When every issue cites a reference, no missing-references warning is raised. */
  lemma AllReferencedNoWarning(result: ReviewResult)
    requires forall k, i :: 0 <= k < |result.pages| && 0 <= i < |result.pages[k].issues| ==>
      HasReference(result.pages[k].issues[i])
    ensures MissingReferences !in QualityWarnings(CalculateMetrics(result))
  {
    CountAllEveryIssue(result.pages, HasReference);
  }

  /** When every issue is of high confidence, the confidence score is 100
      (or 0 for a review without issues). */
  lemma AllHighConfidenceScore(result: ReviewResult)
    requires forall k, i :: 0 <= k < |result.pages| && 0 <= i < |result.pages[k].issues| ==>
      IsHighConfidence(result.pages[k].issues[i])
    ensures var m := CalculateMetrics(result);
      m.confidenceScore == if m.totalIssues == 0 then 0.0 else 100.0
  {
    CountAllEveryIssue(result.pages, IsHighConfidence);
  }
}

=== FILE: region_extractor.dfy ===
/**
 Region extraction for one page: text blocks whose text mentions an anchor
 phrase of a tag become padded crop rectangles, one per anchor; a tag with no
 anchor gets the whole page. Geometry is in PDF points (exact reals); the
 rendered image is abstracted to its pixel size, and the PNG a crop would
 produce is abstracted to the pixel rectangle handed to the image crop.
 */
module RegionExtractor {
  import opened Text
  import opened Schemas
  import PageClassifier

  /** An axis-aligned rectangle (x0, y0, x1, y1) in page points. */
  datatype BBox = BBox(x0: real, y0: real, x1: real, y1: real)

  /** One text block of the page, as the PDF library reports it. */
  datatype TextBlock = TextBlock(box: BBox, text: string)

  /** A block that mentions one of a tag's phrases. */
  datatype Anchor = Anchor(box: BBox, text: string, phrase: string)

  /** The page: its size in points and its text blocks in reading order. */
  datatype Page = Page(width: real, height: real, blocks: seq<TextBlock>)

  /** The rendered page image, reduced to its size in pixels. */
  datatype Raster = Raster(width: int, height: int)

  /** The pixel rectangle (left, top, right, bottom) cut out of the raster. */
  datatype PixelBox = PixelBox(left: int, top: int, right: int, bottom: int)

  datatype Region = Region(tag: string, box: BBox, crop: PixelBox, anchorText: string, confidence: Level)

  const PadX: real := 100.0
  const PadTop: real := 50.0
  const PadBottom: real := 600.0
  const ExtraW: real := 800.0
  const ExtraH: real := 1200.0
  /** The fixed band below a "Door Schedule" anchor, used instead of PadBottom + ExtraH. */
  const DoorBand: real := 1400.0

  /** The anchor vocabulary of each tag; tags not listed have none. */
  function AnchorPhrases(tag: string): seq<string> {
    if tag == "Floor Plan" then ["FLOOR PLAN", "UNIT PLAN"]
    else if tag == "RCP / Ceiling" then ["REFLECTED CEILING", "RCP", "CEILING PLAN"]
    else if tag == "Interior Elevations" then ["INTERIOR ELEVATION", "ELEVATION"]
    else if tag == "Door Schedule" then ["DOOR SCHEDULE"]
    else []
  }

  predicate AllNoLower(ps: seq<string>) {
    forall k :: 0 <= k < |ps| ==> NoLower(ps[k])
  }

  /** Every anchor phrase is upper-case, so matching against upper-cased text
      is case-insensitive: upper-casing a phrase leaves it unchanged. */
  lemma AnchorPhrasesUpper(tag: string)
    ensures forall k :: 0 <= k < |AnchorPhrases(tag)| ==> Upper(AnchorPhrases(tag)[k]) == AnchorPhrases(tag)[k]
  {
    var ps := AnchorPhrases(tag);
    assert NoLower("FLOOR PLAN") && NoLower("UNIT PLAN");
    assert NoLower("REFLECTED CEILING") && NoLower("RCP") && NoLower("CEILING PLAN");
    assert NoLower("INTERIOR ELEVATION") && NoLower("ELEVATION");
    assert NoLower("DOOR SCHEDULE");
    assert AllNoLower(ps);
    forall k | 0 <= k < |ps| ensures Upper(ps[k]) == ps[k] {
      UpperFixesNoLower(ps[k]);
    }
  }

  // ---- anchor search ----

  /** The first phrase, in list order, occurring in `normalized`. */
  function FirstPhrase(normalized: string, phrases: seq<string>): (r: Option<string>)
    ensures r.None? <==> forall k :: 0 <= k < |phrases| ==> !IsSubstring(phrases[k], normalized)
    ensures r.Some? ==> r.value in phrases
    ensures r.Some? ==>
      (exists k :: 0 <= k < |phrases| && phrases[k] == r.value
        && IsSubstring(phrases[k], normalized)
        && forall j :: 0 <= j < k ==> !IsSubstring(phrases[j], normalized))
  {
    if |phrases| == 0 then None
    else if IsSubstring(phrases[0], normalized) then Some(phrases[0])
    else
      var rest := FirstPhrase(normalized, phrases[1..]);
      assert forall k :: 1 <= k < |phrases| ==> phrases[k] == phrases[1..][k - 1];
      rest
  }

  /** The anchor one block yields: none for empty text or no matching phrase. */
  function BlockAnchor(block: TextBlock, phrases: seq<string>): (r: Option<Anchor>)
    ensures r.Some? <==> block.text != [] && FirstPhrase(Upper(block.text), phrases).Some?
    ensures r.Some? ==>
      (r.value.box == block.box && r.value.text == Strip(block.text)
        && r.value.phrase == FirstPhrase(Upper(block.text), phrases).value)
  {
    if block.text == [] then None
    else match FirstPhrase(Upper(block.text), phrases)
      case None => None
      case Some(p) => Some(Anchor(block.box, Strip(block.text), p))
  }

  /** `_find_anchor_blocks`: at most one anchor per block, in block order. */
  function FindAnchorBlocks(blocks: seq<TextBlock>, phrases: seq<string>): (r: seq<Anchor>)
    ensures |r| <= |blocks|
    ensures forall i :: 0 <= i < |r| ==> r[i].phrase in phrases
  {
    if |blocks| == 0 then []
    else
      var rest := FindAnchorBlocks(blocks[1..], phrases);
      match BlockAnchor(blocks[0], phrases)
      case None => rest
      case Some(a) =>
        assert a.phrase in phrases;
        [a] + rest
  }

  /** No anchor is found exactly when no block yields one. */
  lemma {:induction false} FindAnchorBlocksEmptyIff(blocks: seq<TextBlock>, phrases: seq<string>)
    ensures FindAnchorBlocks(blocks, phrases) == [] <==>
      forall j :: 0 <= j < |blocks| ==> BlockAnchor(blocks[j], phrases).None?
  {
    if |blocks| > 0 {
      FindAnchorBlocksEmptyIff(blocks[1..], phrases);
      if BlockAnchor(blocks[0], phrases).None? {
        assert forall j :: 1 <= j < |blocks| ==> blocks[j] == blocks[1..][j - 1];
      }
    }
  }

  /** Searching a concatenation of block lists concatenates the anchors, so
      anchors keep block order. */
  lemma {:induction false} FindAnchorBlocksAppend(a: seq<TextBlock>, b: seq<TextBlock>, phrases: seq<string>)
    ensures FindAnchorBlocks(a + b, phrases) == FindAnchorBlocks(a, phrases) + FindAnchorBlocks(b, phrases)
  {
    if |a| == 0 {
      assert a + b == b;
    } else {
      assert (a + b)[0] == a[0];
      assert (a + b)[1..] == a[1..] + b;
      FindAnchorBlocksAppend(a[1..], b, phrases);
    }
  }

  /** One block yields exactly its own anchor, if any. */
  lemma FindAnchorBlocksSingle(block: TextBlock, phrases: seq<string>)
    ensures FindAnchorBlocks([block], phrases) ==
      match BlockAnchor(block, phrases) case None => [] case Some(a) => [a]
  {
    assert [block][1..] == [];
  }

  /** A block whose upper-cased text contains one of the phrases, e.g. "Door
      schedule" for the phrase "DOOR SCHEDULE", yields an anchor whatever the
      case of its letters. */
  lemma MatchIgnoresCase(block: TextBlock, phrases: seq<string>, k: nat)
    requires k < |phrases| && phrases[k] != [] && IsSubstring(phrases[k], Upper(block.text))
    ensures BlockAnchor(block, phrases).Some?
  {
    assert |Upper(block.text)| >= |phrases[k]| > 0;
  }

  // ---- crop geometry ----

  /** How far below the anchor's bottom edge the crop reaches. */
  function BottomBand(tag: string): (b: real)
    ensures tag == "Door Schedule" ==> b == 1400.0
    ensures tag != "Door Schedule" ==> b == 1800.0
  {
    if tag == "Door Schedule" then DoorBand else PadBottom + ExtraH
  }

  /** The padded rectangle around an anchor, clamped to the page. */
  function CropBox(tag: string, a: BBox, width: real, height: real): (c: BBox)
    ensures 0.0 <= c.x0 && 0.0 <= c.y0 && c.x1 <= width && c.y1 <= height
    ensures a.x0 >= 0.0 ==> c.x0 <= a.x0
    ensures a.y0 >= 0.0 ==> c.y0 <= a.y0
    ensures a.x0 >= PadX ==> c.x0 == a.x0 - 100.0
    ensures a.y0 >= PadTop ==> c.y0 == a.y0 - 50.0
    ensures a.x1 + 900.0 <= width ==> c.x1 == a.x1 + 900.0
    ensures a.y1 + BottomBand(tag) <= height ==> c.y1 == a.y1 + BottomBand(tag)
    ensures a.x0 <= PadX ==> c.x0 == 0.0
    ensures a.y0 <= PadTop ==> c.y0 == 0.0
    ensures a.x1 + 900.0 >= width ==> c.x1 == width
    ensures a.y1 + BottomBand(tag) >= height ==> c.y1 == height
    ensures a.x1 <= width ==> a.x1 <= c.x1
    ensures a.y1 <= height ==> a.y1 <= c.y1
  {
    BBox(MaxR(0.0, a.x0 - PadX), MaxR(0.0, a.y0 - PadTop),
         MinR(width, a.x1 + PadX + ExtraW), MinR(height, a.y1 + BottomBand(tag)))
  }

  predicate Inside(inner: BBox, outer: BBox) {
    outer.x0 <= inner.x0 && inner.x1 <= outer.x1 && outer.y0 <= inner.y0 && inner.y1 <= outer.y1
  }

  predicate WellFormed(b: BBox) { b.x0 <= b.x1 && b.y0 <= b.y1 }

  /** An anchor lying on the page gets a well-formed crop that stays on the
      page and contains the anchor. */
  lemma CropBoxContainsAnchor(tag: string, a: BBox, width: real, height: real)
    requires WellFormed(a) && Inside(a, BBox(0.0, 0.0, width, height))
    ensures WellFormed(CropBox(tag, a, width, height))
    ensures Inside(a, CropBox(tag, a, width, height))
    ensures Inside(CropBox(tag, a, width, height), BBox(0.0, 0.0, width, height))
  {
  }

  /** Python's `int()` on a float: truncation toward zero. */
  function Trunc(x: real): (n: int)
    ensures x >= 0.0 ==> n as real <= x < n as real + 1.0
    ensures x < 0.0 ==> n as real - 1.0 < x <= n as real
  {
    if x >= 0.0 then x.Floor else -((-x).Floor)
  }

  lemma TruncTowardZero(x: real)
    ensures -x <= Trunc(x) as real <= x || x <= Trunc(x) as real <= -x
    ensures Trunc(-x) == -Trunc(x)
  {
  }

  /** Points per inch of a PDF page. */
  const PointsPerInch: real := 72.0

  /** The render scale for a resolution in dots per inch. */
  function Zoom(dpi: int): real {
    dpi as real / PointsPerInch
  }

  /** A box in page points expressed in pixels at the given scale. */
  function ScaleBox(box: BBox, scale: real): BBox {
    BBox(box.x0 * scale, box.y0 * scale, box.x1 * scale, box.y1 * scale)
  }

  /** `_crop_region`: the box scaled to pixels, truncated, and clamped to the image. */
  function CropPixels(raster: Raster, box: BBox, scale: real): (p: PixelBox)
    ensures p.left >= 0 && p.top >= 0
    ensures p.right <= raster.width && p.bottom <= raster.height
    ensures var q := ScaleBox(box, scale);
      (Trunc(q.x0) <= 0 ==> p.left == 0) && (Trunc(q.x0) >= 0 ==> p.left == Trunc(q.x0))
      && (Trunc(q.y0) <= 0 ==> p.top == 0) && (Trunc(q.y0) >= 0 ==> p.top == Trunc(q.y0))
      && (Trunc(q.x1) >= raster.width ==> p.right == raster.width)
      && (Trunc(q.x1) <= raster.width ==> p.right == Trunc(q.x1))
      && (Trunc(q.y1) >= raster.height ==> p.bottom == raster.height)
      && (Trunc(q.y1) <= raster.height ==> p.bottom == Trunc(q.y1))
  {
    var q := ScaleBox(box, scale);
    PixelBox(
      if Trunc(q.x0) >= 0 then Trunc(q.x0) else 0,
      if Trunc(q.y0) >= 0 then Trunc(q.y0) else 0,
      if raster.width <= Trunc(q.x1) then raster.width else Trunc(q.x1),
      if raster.height <= Trunc(q.y1) then raster.height else Trunc(q.y1))
  }

  /** A coordinate on the image truncates to a pixel on the image, at most
      one pixel before it. */
  lemma TruncOnImage(v: real, limit: int)
    requires 0.0 <= v <= limit as real
    ensures 0 <= Trunc(v) <= limit
    ensures Trunc(v) as real <= v < Trunc(v) as real + 1.0
  {
  }

  /** For a box whose scaled corners lie on the image, clamping changes
      nothing: each pixel coordinate is the truncated scaled coordinate. */
  lemma CropPixelsApproximates(raster: Raster, box: BBox, scale: real)
    requires var q := ScaleBox(box, scale);
      0.0 <= q.x0 <= raster.width as real && 0.0 <= q.x1 <= raster.width as real
      && 0.0 <= q.y0 <= raster.height as real && 0.0 <= q.y1 <= raster.height as real
    ensures var q := ScaleBox(box, scale);
      CropPixels(raster, box, scale) == PixelBox(Trunc(q.x0), Trunc(q.y0), Trunc(q.x1), Trunc(q.y1))
  {
    var q := ScaleBox(box, scale);
    TruncOnImage(q.x0, raster.width);
    TruncOnImage(q.x1, raster.width);
    TruncOnImage(q.y0, raster.height);
    TruncOnImage(q.y1, raster.height);
  }

  // ---- regions ----

  /** The anchors a tag finds on the page; a tag without phrases finds none. */
  function TagAnchors(tag: string, page: Page): seq<Anchor> {
    var phrases := AnchorPhrases(tag);
    if phrases != [] then FindAnchorBlocks(page.blocks, phrases) else []
  }

  /** The region cut around one anchor. */
  function AnchorRegion(tag: string, page: Page, raster: Raster, zoom: real, a: Anchor): (r: Region)
    ensures r.tag == tag && r.confidence == High && r.anchorText == a.text
    ensures r.box == CropBox(tag, a.box, page.width, page.height)
    ensures r.crop == CropPixels(raster, r.box, zoom)
    ensures 0.0 <= r.box.x0 && 0.0 <= r.box.y0 && r.box.x1 <= page.width && r.box.y1 <= page.height
    ensures 0 <= r.crop.left && 0 <= r.crop.top && r.crop.right <= raster.width && r.crop.bottom <= raster.height
  {
    var box := CropBox(tag, a.box, page.width, page.height);
    Region(tag, box, CropPixels(raster, box, zoom), a.text, High)
  }

  /** The region for a tag no anchor was found for: the whole page. */
  function FallbackRegion(tag: string, page: Page, raster: Raster, zoom: real): (r: Region)
    ensures r.tag == tag && r.confidence == Low && r.anchorText == []
    ensures r.box == BBox(0.0, 0.0, page.width, page.height)
    ensures r.crop == CropPixels(raster, r.box, zoom)
  {
    var box := BBox(0.0, 0.0, page.width, page.height);
    Region(tag, box, CropPixels(raster, box, zoom), "", Low)
  }

  function AnchorRegions(tag: string, page: Page, raster: Raster, zoom: real, anchors: seq<Anchor>): (rs: seq<Region>)
    ensures |rs| == |anchors|
    ensures forall i :: 0 <= i < |rs| ==> rs[i] == AnchorRegion(tag, page, raster, zoom, anchors[i])
  {
    seq(|anchors|, i requires 0 <= i < |anchors| => AnchorRegion(tag, page, raster, zoom, anchors[i]))
  }

  /** The regions of a tag given the anchors it found: one per anchor, all
      High, or else the single whole-page Low region. */
  function RegionsFromAnchors(tag: string, page: Page, raster: Raster, zoom: real, anchors: seq<Anchor>): (rs: seq<Region>)
    ensures |rs| == if |anchors| == 0 then 1 else |anchors|
    ensures forall i :: 0 <= i < |rs| ==> rs[i].tag == tag
    ensures forall i :: 0 <= i < |rs| ==> (rs[i].confidence == High <==> anchors != [])
    ensures anchors != [] ==> forall i :: 0 <= i < |rs| ==>
      rs[i].box == CropBox(tag, anchors[i].box, page.width, page.height) && rs[i].anchorText == anchors[i].text
    ensures anchors == [] ==> rs == [FallbackRegion(tag, page, raster, zoom)]
  {
    if anchors != [] then AnchorRegions(tag, page, raster, zoom, anchors)
    else [FallbackRegion(tag, page, raster, zoom)]
  }

  /** The regions of one selected tag. */
  function RegionsForTag(tag: string, page: Page, raster: Raster, zoom: real): seq<Region> {
    RegionsFromAnchors(tag, page, raster, zoom, TagAnchors(tag, page))
  }

  /** The lists of `xss` one after another. */
  function Concat(xss: seq<seq<Region>>): seq<Region> {
    if |xss| == 0 then [] else xss[0] + Concat(xss[1..])
  }

  lemma {:induction false} ConcatAppend(a: seq<seq<Region>>, b: seq<seq<Region>>)
    ensures Concat(a + b) == Concat(a) + Concat(b)
  {
    if |a| == 0 {
      assert a + b == b;
    } else {
      assert (a + b)[0] == a[0];
      assert (a + b)[1..] == a[1..] + b;
      ConcatAppend(a[1..], b);
    }
  }

  lemma {:induction false} ConcatMember(xss: seq<seq<Region>>, r: Region)
    requires r in Concat(xss)
    ensures exists i :: 0 <= i < |xss| && r in xss[i]
  {
    if r !in xss[0] {
      ConcatMember(xss[1..], r);
      var i :| 0 <= i < |xss[1..]| && r in xss[1..][i];
      assert xss[i + 1] == xss[1..][i];
    }
  }

  lemma {:induction false} ConcatContains(xss: seq<seq<Region>>, i: nat, r: Region)
    requires i < |xss| && r in xss[i]
    ensures r in Concat(xss)
  {
    if i > 0 {
      assert xss[1..][i - 1] == xss[i];
      ConcatContains(xss[1..], i - 1, r);
    }
  }

  /** The regions `f` yields for each tag, tag by tag. */
  function MapTags(f: string -> seq<Region>, tags: seq<string>): (rss: seq<seq<Region>>)
    ensures |rss| == |tags|
    ensures forall i :: 0 <= i < |rss| ==> rss[i] == f(tags[i])
  {
    seq(|tags|, i requires 0 <= i < |tags| => f(tags[i]))
  }

  lemma MapTagsAppend(f: string -> seq<Region>, a: seq<string>, b: seq<string>)
    ensures MapTags(f, a + b) == MapTags(f, a) + MapTags(f, b)
  {
  }

  /** The per-tag region function of one page. */
  function TagRegions(page: Page, raster: Raster, dpi: int): string -> seq<Region> {
    t => RegionsForTag(t, page, raster, Zoom(dpi))
  }

  /** `extract_regions` on an already opened page: the regions of every
      selected tag, in the order the tags are given. */
  function ExtractRegions(page: Page, raster: Raster, dpi: int, selectedTags: seq<string>): seq<Region> {
    Concat(MapTags(TagRegions(page, raster, dpi), selectedTags))
  }

  /** How many regions a list of tags yields: max(1, anchors) per tag. */
  function ExpectedRegionCount(page: Page, tags: seq<string>): (n: nat)
    ensures n >= |tags|
  {
    if |tags| == 0 then 0
    else
      var k := |TagAnchors(tags[0], page)|;
      (if k == 0 then 1 else k) + ExpectedRegionCount(page, tags[1..])
  }

  /** Extraction over concatenated tag lists concatenates the regions, so
      regions follow the order of the selected tags. */
  lemma ExtractRegionsAppend(page: Page, raster: Raster, dpi: int, a: seq<string>, b: seq<string>)
    ensures ExtractRegions(page, raster, dpi, a + b) == ExtractRegions(page, raster, dpi, a) + ExtractRegions(page, raster, dpi, b)
  {
    var f := TagRegions(page, raster, dpi);
    MapTagsAppend(f, a, b);
    ConcatAppend(MapTags(f, a), MapTags(f, b));
  }

  /** The total number of regions is the sum over tags of max(1, anchors). */
  lemma {:induction false} ExtractRegionsCount(page: Page, raster: Raster, dpi: int, tags: seq<string>)
    ensures |ExtractRegions(page, raster, dpi, tags)| == ExpectedRegionCount(page, tags)
  {
    if |tags| > 0 {
      var f := TagRegions(page, raster, dpi);
      var rss := MapTags(f, tags);
      assert rss[1..] == MapTags(f, tags[1..]);
      assert |rss[0]| == |RegionsForTag(tags[0], page, raster, Zoom(dpi))|;
      ExtractRegionsCount(page, raster, dpi, tags[1..]);
    }
  }

  /** A tag without anchor vocabulary, such as "Notes / Code" or an unknown
      tag, always gets the whole-page fallback. */
  lemma NoVocabularyFallsBack(tag: string, page: Page, raster: Raster, zoom: real)
    requires AnchorPhrases(tag) == []
    ensures RegionsForTag(tag, page, raster, zoom) == [FallbackRegion(tag, page, raster, zoom)]
  {
  }

  /** Of the classifier's tags, exactly "Notes / Code" and "Details /
      Sections" have no anchor phrases. */
  lemma AnchorVocabularyOfClassifierTags(t: PageClassifier.Tag)
    ensures AnchorPhrases(PageClassifier.TagName(t)) == [] <==>
      t == PageClassifier.NotesCode || t == PageClassifier.DetailsSections
  {
  }

  lemma NotesCodeHasNoVocabulary()
    ensures AnchorPhrases("Notes / Code") == [] && AnchorPhrases("Details / Sections") == []
  {
  }

  /** A region's box lies within the page. */
  predicate BoxOnPage(r: Region, page: Page) {
    0.0 <= r.box.x0 && 0.0 <= r.box.y0 && r.box.x1 <= page.width && r.box.y1 <= page.height
  }

  lemma RegionsForTagOnPage(tag: string, page: Page, raster: Raster, zoom: real)
    requires page.width >= 0.0 && page.height >= 0.0
    ensures forall r | r in RegionsForTag(tag, page, raster, zoom) :: BoxOnPage(r, page)
  {
    var rs := RegionsForTag(tag, page, raster, zoom);
    forall r | r in rs
      ensures BoxOnPage(r, page)
    {
      var j :| 0 <= j < |rs| && rs[j] == r;
    }
  }

  /** Every region lies on the page: crops are clamped and the fallback is
      the page itself. */
  lemma RegionsOnPage(page: Page, raster: Raster, dpi: int, tags: seq<string>)
    requires page.width >= 0.0 && page.height >= 0.0
    ensures forall r | r in ExtractRegions(page, raster, dpi, tags) :: BoxOnPage(r, page)
  {
    var rss := MapTags(TagRegions(page, raster, dpi), tags);
    forall r | r in ExtractRegions(page, raster, dpi, tags)
      ensures BoxOnPage(r, page)
    {
      ConcatMember(rss, r);
      var i :| 0 <= i < |rss| && r in rss[i];
      assert rss[i] == RegionsForTag(tags[i], page, raster, Zoom(dpi));
      RegionsForTagOnPage(tags[i], page, raster, Zoom(dpi));
    }
  }

  /** Every selected tag yields at least one region, so there are at least
      as many regions as tags. */
  lemma ExtractRegionsCoverTags(page: Page, raster: Raster, dpi: int, tags: seq<string>)
    ensures forall t | t in tags :: exists r | r in ExtractRegions(page, raster, dpi, tags) :: r.tag == t
    ensures |ExtractRegions(page, raster, dpi, tags)| >= |tags|
  {
    var rss := MapTags(TagRegions(page, raster, dpi), tags);
    forall t | t in tags
      ensures exists r | r in ExtractRegions(page, raster, dpi, tags) :: r.tag == t
    {
      var i :| 0 <= i < |tags| && tags[i] == t;
      var rs := RegionsForTag(t, page, raster, Zoom(dpi));
      assert rss[i] == rs;
      assert rs[0].tag == t;
      ConcatContains(rss, i, rs[0]);
    }
    ExtractRegionsCount(page, raster, dpi, tags);
  }

  /** A region's pixel rectangle is its box scaled to the image. */
  predicate CropMatchesBox(r: Region, raster: Raster, zoom: real) {
    r.crop == CropPixels(raster, r.box, zoom)
  }

  lemma RegionsForTagCrops(tag: string, page: Page, raster: Raster, zoom: real)
    ensures forall r | r in RegionsForTag(tag, page, raster, zoom) :: CropMatchesBox(r, raster, zoom)
  {
    var rs := RegionsForTag(tag, page, raster, zoom);
    forall r | r in rs
      ensures CropMatchesBox(r, raster, zoom)
    {
      var j :| 0 <= j < |rs| && rs[j] == r;
    }
  }

  /** Every region's pixel rectangle is its page box scaled by dpi/72,
      truncated and clamped to the image. */
  lemma ExtractRegionsCrops(page: Page, raster: Raster, dpi: int, tags: seq<string>)
    ensures forall r | r in ExtractRegions(page, raster, dpi, tags) :: CropMatchesBox(r, raster, Zoom(dpi))
  {
    var rss := MapTags(TagRegions(page, raster, dpi), tags);
    forall r | r in ExtractRegions(page, raster, dpi, tags)
      ensures CropMatchesBox(r, raster, Zoom(dpi))
    {
      ConcatMember(rss, r);
      var i :| 0 <= i < |rss| && r in rss[i];
      assert rss[i] == RegionsForTag(tags[i], page, raster, Zoom(dpi));
      RegionsForTagCrops(tags[i], page, raster, Zoom(dpi));
    }
  }

  /** Every region carries one of the selected tags. */
  lemma ExtractRegionsTags(page: Page, raster: Raster, dpi: int, tags: seq<string>)
    ensures forall r | r in ExtractRegions(page, raster, dpi, tags) :: r.tag in tags
  {
    var rss := MapTags(TagRegions(page, raster, dpi), tags);
    forall r | r in ExtractRegions(page, raster, dpi, tags)
      ensures r.tag in tags
    {
      ConcatMember(rss, r);
      var i :| 0 <= i < |rss| && r in rss[i];
      var rs := RegionsForTag(tags[i], page, raster, Zoom(dpi));
      assert rss[i] == rs;
      var j :| 0 <= j < |rs| && rs[j] == r;
    }
  }

  /** A page whose only block mentions a door schedule, in any letter case,
      yields one High region for "Door Schedule", reaching 1400 points below
      the block (clamped to the page). */
  lemma DoorScheduleSingleAnchor(page: Page, raster: Raster, zoom: real)
    requires |page.blocks| == 1 && IsSubstring("DOOR SCHEDULE", Upper(page.blocks[0].text))
    ensures var rs := RegionsForTag("Door Schedule", page, raster, zoom);
      var b := page.blocks[0];
      |rs| == 1 && rs[0].confidence == High && rs[0].anchorText == Strip(b.text)
      && rs[0].box == CropBox("Door Schedule", b.box, page.width, page.height)
      && rs[0].box.y1 == MinR(page.height, b.box.y1 + 1400.0)
  {
    var phrases := AnchorPhrases("Door Schedule");
    var b := page.blocks[0];
    MatchIgnoresCase(b, phrases, 0);
    FindAnchorBlocksSingle(b, phrases);
    assert page.blocks == [b];
  }
}

=== FILE: schemas.dfy ===
/**
 The review record: rulesets, the three-level severity/confidence scale,
 issues, page reviews and the whole review result. Every field the
 annotation and metrics code reads is present; an empty string stands for
 a missing optional string (Python's `None` and `""` are both falsy there).
 */
module Schemas {

  datatype Option<T> = None | Some(value: T) {
    function GetOr(default: T): T {
      match this
      case Some(v) => v
      case None => default
    }
  }

  /** Python's `max` and `min` on two numbers. */
  function MaxR(a: real, b: real): real { if a >= b then a else b }
  function MinR(a: real, b: real): real { if a <= b then a else b }

  /** The accessibility rule sets a review is checked against. */
  datatype Ruleset = FHA | AnsiA1171TypeA | AnsiA1171TypeB

  /** The closed scale used for severity and for confidence. */
  datatype Level = High | Medium | Low

  function RulesetName(r: Ruleset): string {
    match r
    case FHA => "FHA"
    case AnsiA1171TypeA => "ANSI_A1171_TYPE_A"
    case AnsiA1171TypeB => "ANSI_A1171_TYPE_B"
  }

  function LevelName(l: Level): string {
    match l
    case High => "High"
    case Medium => "Medium"
    case Low => "Low"
  }

  /** Validation of a ruleset literal: only the three names are accepted. */
  function ParseRuleset(s: string): (r: Option<Ruleset>)
    ensures r.Some? <==> s in {"FHA", "ANSI_A1171_TYPE_A", "ANSI_A1171_TYPE_B"}
    ensures r.Some? ==> RulesetName(r.value) == s
  {
    if s == "FHA" then Some(FHA)
    else if s == "ANSI_A1171_TYPE_A" then Some(AnsiA1171TypeA)
    else if s == "ANSI_A1171_TYPE_B" then Some(AnsiA1171TypeB)
    else None
  }

  /** Validation of a severity/confidence literal. */
  function ParseLevel(s: string): (r: Option<Level>)
    ensures r.Some? <==> s in {"High", "Medium", "Low"}
    ensures r.Some? ==> LevelName(r.value) == s
  {
    if s == "High" then Some(High)
    else if s == "Medium" then Some(Medium)
    else if s == "Low" then Some(Low)
    else None
  }

  lemma RulesetNameRoundTrip(r: Ruleset)
    ensures ParseRuleset(RulesetName(r)) == Some(r)
  {
  }

  lemma LevelNameRoundTrip(l: Level)
    ensures ParseLevel(LevelName(l)) == Some(l)
  {
  }

  /** One finding. `issueId`, `measurement` and `reviewerNote` are `""` when absent. */
  datatype Issue = Issue(
    issueId: string,
    severity: Level,
    locationHint: string,
    finding: string,
    recommendation: string,
    reference: Option<string>,
    confidence: Level,
    measurement: string,
    reviewerNote: string)

  /** The review of one page; the order of `issues` is the model's output order. */
  datatype PageReview = PageReview(
    pageIndex: int,
    pageLabel: string,
    sheetNumber: string,
    sheetTitle: string,
    summary: string,
    issues: seq<Issue>)

  /** A whole review; the order of `pages` is significant. */
  datatype ReviewResult = ReviewResult(
    projectName: string,
    ruleset: Ruleset,
    scaleNote: string,
    overallSummary: string,
    pages: seq<PageReview>)
}

=== FILE: text.dfy ===
/**
 String helpers shared by the classifier, the region extractor and the
 annotation code: ASCII upper-casing, Python's whitespace and line-break
 characters, `strip`, `splitlines`, substring search and decimal rendering
 of integers.
 */
module Text {

  /** Python's `str.isspace` code points (also what `\s` and `strip()` use). */
  predicate IsSpace(c: char) {
    var n := c as int;
    (9 <= n <= 13) || (28 <= n <= 32) || n == 0x85 || n == 0xA0 || n == 0x1680
    || (0x2000 <= n <= 0x200A) || n == 0x2028 || n == 0x2029 || n == 0x202F
    || n == 0x205F || n == 0x3000
  }

  /** Python's `str.splitlines` boundaries (`\r\n` counts as two breaks here,
      which only adds an empty line). */
  predicate IsLineBreak(c: char) {
    var n := c as int;
    (10 <= n <= 13) || (28 <= n <= 30) || n == 0x85 || n == 0x2028 || n == 0x2029
  }

  predicate IsLowerAscii(c: char) { 'a' <= c <= 'z' }

  predicate IsDigit(c: char) { '0' <= c <= '9' }

  function UpperChar(c: char): (u: char)
    ensures !IsLowerAscii(u)
    ensures !IsLowerAscii(c) ==> u == c
    ensures IsLowerAscii(c) ==> u as int == c as int - 32
  {
    if IsLowerAscii(c) then (c as int - 32) as char else c
  }

  /** ASCII approximation of Python's `str.upper`. */
  function Upper(s: string): (u: string)
    ensures |u| == |s|
    ensures forall i :: 0 <= i < |s| ==> u[i] == UpperChar(s[i])
  {
    seq(|s|, i requires 0 <= i < |s| => UpperChar(s[i]))
  }

  predicate NoLower(s: string) {
    forall i :: 0 <= i < |s| ==> !IsLowerAscii(s[i])
  }

  lemma UpperHasNoLower(s: string)
    ensures NoLower(Upper(s))
  {
  }

  lemma UpperFixesNoLower(s: string)
    requires NoLower(s)
    ensures Upper(s) == s
  {
  }

  /** `p in s` for Python strings, stated as the existence of a position. */
  predicate IsSubstring(p: string, s: string) {
    exists i | 0 <= i <= |s| - |p| :: MatchesAt(p, s, i)
  }

  /** `p` occurs in `s` starting at position `i`. */
  predicate MatchesAt(p: string, s: string, i: nat) {
    i + |p| <= |s| && s[i..i + |p|] == p
  }

  /** A pattern holding a character that never occurs in `s` does not occur in `s`. */
  lemma AbsentCharNoSubstring(p: string, s: string, k: nat, c: char)
    requires k < |p| && p[k] == c
    requires forall i :: 0 <= i < |s| ==> s[i] != c
    ensures !IsSubstring(p, s)
  {
    forall i | 0 <= i <= |s| - |p|
      ensures !MatchesAt(p, s, i)
    {
      assert s[i + k] != c;
      assert s[i..i + |p|][k] == s[i + k];
    }
  }

  /** A pattern holding two adjacent characters that are never adjacent in `s`
      does not occur in `s`. */
  lemma AbsentPairNoSubstring(p: string, s: string, k: nat)
    requires k + 1 < |p|
    requires forall i :: 0 <= i < |s| - 1 ==> !(s[i] == p[k] && s[i + 1] == p[k + 1])
    ensures !IsSubstring(p, s)
  {
    forall i | 0 <= i <= |s| - |p|
      ensures !MatchesAt(p, s, i)
    {
      assert s[i..i + |p|][k] == s[i + k];
      assert s[i..i + |p|][k + 1] == s[i + k + 1];
    }
  }

  // ---- strip ----

  function TrimLeft(s: string): (r: string)
    ensures |r| <= |s| && r == s[|s| - |r|..]
    ensures |r| > 0 ==> !IsSpace(r[0])
    ensures forall i :: 0 <= i < |s| - |r| ==> IsSpace(s[i])
  {
    if |s| > 0 && IsSpace(s[0]) then TrimLeft(s[1..]) else s
  }

  function TrimRight(s: string): (r: string)
    ensures |r| <= |s| && r == s[..|r|]
    ensures |r| > 0 ==> !IsSpace(r[|r| - 1])
    ensures forall i :: |r| <= i < |s| ==> IsSpace(s[i])
  {
    if |s| > 0 && IsSpace(s[|s| - 1]) then TrimRight(s[..|s| - 1]) else s
  }

  /** `r` is the slice of `s` at `a` with only whitespace on either side. */
  predicate StripsAt(s: string, r: string, a: int) {
    0 <= a && a + |r| <= |s| && r == s[a..a + |r|] && AllSpace(s[..a]) && AllSpace(s[a + |r|..])
  }

  /** Python's `str.strip()` with no argument: `s` with its leading and
      trailing whitespace removed, and nothing else. */
  function Strip(s: string): (r: string)
    ensures |r| <= |s|
    ensures |r| > 0 ==> !IsSpace(r[0]) && !IsSpace(r[|r| - 1])
    ensures r == [] <==> forall i :: 0 <= i < |s| ==> IsSpace(s[i])
    ensures exists a :: StripsAt(s, r, a)
  {
    var t := TrimLeft(s);
    var r := TrimRight(t);
    var a := |s| - |t|;
    assert s[a..a + |r|] == t[..|r|];
    assert s[a + |r|..] == t[|r|..];
    assert StripsAt(s, r, a);
    r
  }

  // ---- splitlines ----

  /** The pieces of `s` between line breaks, in order (Python's `splitlines`,
      up to empty pieces, which every caller here discards). */
  function SplitLines(s: string): (r: seq<string>)
    ensures |r| >= 1
    ensures forall k :: 0 <= k < |r| ==> forall i :: 0 <= i < |r[k]| ==> !IsLineBreak(r[k][i])
    decreases |s|
  {
    if |s| == 0 then [""]
    else
      var rest := SplitLines(s[1..]);
      if IsLineBreak(s[0]) then [""] + rest
      else [[s[0]] + rest[0]] + rest[1..]
  }

  predicate AllSpace(s: string) {
    forall i :: 0 <= i < |s| ==> IsSpace(s[i])
  }

  predicate AllPiecesBlank(ls: seq<string>) {
    forall k :: 0 <= k < |ls| ==> AllSpace(ls[k])
  }

  /** `[line.strip() for line in ls if line.strip()]` */
  function StripNonBlank(ls: seq<string>): (r: seq<string>)
    ensures |r| <= |ls|
  {
    if |ls| == 0 then []
    else
      var line := Strip(ls[0]);
      if line != [] then [line] + StripNonBlank(ls[1..]) else StripNonBlank(ls[1..])
  }

  /** The stripped, non-blank lines of `s`. */
  function NonBlankLines(s: string): seq<string> {
    StripNonBlank(SplitLines(s))
  }

  lemma {:induction false} StripNonBlankEmpty(ls: seq<string>)
    ensures StripNonBlank(ls) == [] <==> AllPiecesBlank(ls)
  {
    if |ls| > 0 {
      StripNonBlankEmpty(ls[1..]);
      assert AllPiecesBlank(ls) <==> AllSpace(ls[0]) && AllPiecesBlank(ls[1..]) by {
        if AllSpace(ls[0]) && AllPiecesBlank(ls[1..]) {
          forall k | 0 <= k < |ls| ensures AllSpace(ls[k]) {
            if k > 0 { assert ls[k] == ls[1..][k - 1]; }
          }
        }
      }
    }
  }

  lemma AllSpaceCons(c: char, t: string)
    ensures AllSpace([c] + t) <==> IsSpace(c) && AllSpace(t)
  {
    var u := [c] + t;
    if AllSpace(u) {
      assert u[0] == c;
      forall i | 0 <= i < |t| ensures IsSpace(t[i]) { assert t[i] == u[i + 1]; }
    }
  }

  lemma AllPiecesCons(l: string, ls: seq<string>)
    ensures AllPiecesBlank([l] + ls) <==> AllSpace(l) && AllPiecesBlank(ls)
  {
    var u := [l] + ls;
    if AllPiecesBlank(u) {
      assert u[0] == l;
      forall k | 0 <= k < |ls| ensures AllSpace(ls[k]) { assert ls[k] == u[k + 1]; }
    }
  }

  lemma {:induction false} SplitLinesBlank(s: string)
    ensures AllPiecesBlank(SplitLines(s)) <==> AllSpace(s)
    decreases |s|
  {
    if |s| > 0 {
      var rest := SplitLines(s[1..]);
      SplitLinesBlank(s[1..]);
      assert s == [s[0]] + s[1..];
      AllSpaceCons(s[0], s[1..]);
      if IsLineBreak(s[0]) {
        AllPiecesCons("", rest);
      } else {
        assert rest == [rest[0]] + rest[1..];
        AllPiecesCons(rest[0], rest[1..]);
        AllSpaceCons(s[0], rest[0]);
        AllPiecesCons([s[0]] + rest[0], rest[1..]);
      }
    }
  }

  /** A text has a non-blank line exactly when it has a non-whitespace character. */
  lemma NonBlankLinesEmptyIffBlank(s: string)
    ensures NonBlankLines(s) == [] <==> AllSpace(s)
  {
    StripNonBlankEmpty(SplitLines(s));
    SplitLinesBlank(s);
  }

  // ---- decimal rendering ----

  function DigitChar(d: nat): (c: char)
    requires d < 10
    ensures IsDigit(c)
  {
    ('0' as int + d) as char
  }

  function DigitValue(c: char): (d: nat)
    requires IsDigit(c)
    ensures d < 10 && DigitChar(d) == c
  {
    (c as int - '0' as int)
  }

  /** Python's `str(n)` for a natural number. */
  function NatToString(n: nat): (s: string)
    ensures |s| >= 1
    ensures forall i :: 0 <= i < |s| ==> IsDigit(s[i])
    ensures n > 0 ==> s[0] != '0'
  {
    if n < 10 then [DigitChar(n)] else NatToString(n / 10) + [DigitChar(n % 10)]
  }

  /** Reads a non-empty string of decimal digits back as a number. */
  function DigitsToNat(s: string): (n: nat)
    requires forall i :: 0 <= i < |s| ==> IsDigit(s[i])
  {
    if |s| == 0 then 0 else DigitsToNat(s[..|s| - 1]) * 10 + DigitValue(s[|s| - 1])
  }

  lemma {:induction false} NatToStringRoundTrip(n: nat)
    ensures DigitsToNat(NatToString(n)) == n
  {
    var s := NatToString(n);
    if n >= 10 {
      NatToStringRoundTrip(n / 10);
      assert s[..|s| - 1] == NatToString(n / 10);
    }
  }

  lemma NatToStringInjective(m: nat, n: nat)
    requires NatToString(m) == NatToString(n)
    ensures m == n
  {
    NatToStringRoundTrip(m);
    NatToStringRoundTrip(n);
  }

  /** Python's `str(n)` (and the `{n}` of an f-string) for any integer. */
  function IntToString(n: int): (s: string)
    ensures |s| >= 1
    ensures n >= 0 ==> s == NatToString(n)
    ensures n < 0 ==> s == "-" + NatToString(-n)
  {
    if n >= 0 then NatToString(n) else "-" + NatToString(-n)
  }

  /** Different integers render differently, so the rendering can be read back. */
  lemma IntToStringInjective(a: int, b: int)
    ensures IntToString(a) == IntToString(b) ==> a == b
  {
    var sa := IntToString(a);
    var sb := IntToString(b);
    assert IsDigit(NatToString(if a >= 0 then a else -a)[0]);
    assert IsDigit(NatToString(if b >= 0 then b else -b)[0]);
    assert a >= 0 <==> sa[0] != '-';
    assert b >= 0 <==> sb[0] != '-';
    if sa == sb {
      if a >= 0 {
        NatToStringInjective(a, b);
      } else {
        assert NatToString(-a) == sa[1..];
        assert NatToString(-b) == sb[1..];
        NatToStringInjective(-a, -b);
      }
    }
  }

  // ---- splitlines, read back ----

  /** The line-break characters of `s`, in order. */
  function Breaks(s: string): (b: string)
    ensures |b| <= |s|
  {
    if |s| == 0 then []
    else if IsLineBreak(s[0]) then [s[0]] + Breaks(s[1..])
    else Breaks(s[1..])
  }

  /** `ps[0] + seps[0] + ps[1] + ... + ps[|seps|]`. */
  function Interleave(ps: seq<string>, seps: string): string
    requires |ps| == |seps| + 1
  {
    if |seps| == 0 then ps[0] else ps[0] + [seps[0]] + Interleave(ps[1..], seps[1..])
  }

  lemma InterleavePrepend(c: char, ps: seq<string>, seps: string)
    requires |ps| == |seps| + 1
    ensures Interleave([[c] + ps[0]] + ps[1..], seps) == [c] + Interleave(ps, seps)
  {
    var qs := [[c] + ps[0]] + ps[1..];
    assert qs[0] == [c] + ps[0];
    if |seps| > 0 {
      assert qs[1..] == ps[1..];
    }
  }

  /** Splitting loses nothing but the breaks: there is one piece more than
      there are breaks, and putting the breaks back between the pieces gives
      the text again. With no piece holding a break, this fixes every piece. */
  lemma {:induction false} SplitLinesJoin(s: string)
    ensures |SplitLines(s)| == |Breaks(s)| + 1
    ensures Interleave(SplitLines(s), Breaks(s)) == s
    decreases |s|
  {
    if |s| > 0 {
      var rest := SplitLines(s[1..]);
      SplitLinesJoin(s[1..]);
      if IsLineBreak(s[0]) {
        var ps := [""] + rest;
        assert ps[1..] == rest;
        assert Breaks(s)[1..] == Breaks(s[1..]);
        assert s == [s[0]] + s[1..];
      } else {
        InterleavePrepend(s[0], rest, Breaks(s[1..]));
        assert rest == [rest[0]] + rest[1..];
        assert s == [s[0]] + s[1..];
      }
    }
  }
}
